=== FILE: README.md ===
# UserFlux React Native client — Dafny model of the event queue, delivery engine and identity/session rules

The `UserFlux` class is a process-wide telemetry buffer. `track` validates an
event, stamps it with the user, external, anonymous and session identifiers,
appends it to a queue and persists the queue. A gate (`checkQueue`) then
decides whether to attempt delivery. A delivery attempt (`flushEvents`) sends
at most 10 events from the head of the queue. A success drops them. A failure
appends them again at the tail and counts one failure. After three
consecutive failures attempts stop until a 60 s cool-down resets the counter.
Sessions expire after more than five minutes of inactivity. `reset` flushes,
then forgets the identity and installs fresh anonymous and session
identifiers.

The model is functional. The class's static fields are one immutable
`Model.State` record. The device's key/value storage is a map `store` inside
the state, keyed by `uf-anonymousId`, `uf-userId`, `uf-externalId` and
`uf-track`. Each operation is a pure function from a state to a new state.
Every fact from outside is a parameter `Model.Env`:

- the clock `now`;
- the connectivity answer `isConnected`;
- the transport's answer for the batch, `sendOk`;
- the device-enrichment answer `deviceData`;
- 31 random nibbles each for the anonymous and the session identifier.

Timers are not callbacks. An attempt reports whether it scheduled a retry
(`retryScheduled`) or a cool-down reset (`CircuitOpen`). `Delivery.CooldownElapsed`
and `Lifecycle.Step` make those timer firings explicit operations.

Files: `values.dfy` (JavaScript values, truthiness, the blank test, spread,
`removeNullProperties`), `uuid.dfy` (`generateUUID`), `state.dfy` (state,
event, store, environment, invariants), `identity.dfy`, `session.dfy`,
`delivery.dfy`, `tracking.dfy`, `lifecycle.dfy` (`reset`, the app-state and
network listeners, and arbitrary runs of the client).

Behaviour of `index.js` a reader might not expect, which the model keeps:

- A failed batch is re-appended at the tail (`queue.push(...eventsToTrack)`), after the events that were not in the batch.
- Default tracking properties override the per-call properties on a key collision.
- Identifiers are not trimmed. A whitespace-only identifier is kept as a real identity.
- `addToQueue` defaults to false, so a plain `track` forces a flush. While online with the circuit closed, each plain `track` call makes a delivery attempt at once instead of waiting for a batch of ten. When ten or more events were already waiting, that attempt carries the ten oldest and not the new event.
- `reset` does not clear the in-memory queue. Only its forced flush removes events. Whatever the flush leaves stays in memory, while `uf-track` is removed from the store.
- `getSessionId` rotates an expired session even when session tracking was never enabled. The activity clock starts at load time.
- The background handler only calls `flush()`. An `app_background` event comes only from an explicit `trackAppBackground` call by the host. The foreground handler does not emit `app_open`.

## Model

| member | source | states |
|---|---|---|
| Values.IsStringNullOrBlank | index.js:565-568 | every non-string is blank; a string is blank exactly when it is "", "null" or "undefined" |
| Values.WhitespaceIsNotBlank | index.js:565-568 | with no trim, a non-empty all-space string is not blank |
| Values.RemoveNullProperties | index.js:570-572 | keeps exactly the entries whose value is neither null nor undefined, with their values |
| Uuid.VariantNibble | index.js:269-270 | the variant nibble (r AND 3, OR 8) lies in 8..11 and keeps the low two bits of r |
| Uuid.TemplatePlaceholders | index.js:268 | the template is 36 characters long and consumes exactly 31 random nibbles |
| Uuid.FillFits | index.js:267-273 | replacing the placeholders keeps the template's length; every `x` becomes a lowercase hex digit, `y` becomes 8, 9, a or b, and every other character is copied |
| Uuid.GenerateShape | index.js:267-273 | a generated identifier has the 8-4-4-4-12 lowercase-hex layout, with '4' at index 14 and 8/9/a/b at index 19 |
| Session.SetupSessionId | index.js:161-170 | installs a fresh session identifier and sets the start and last-activity times to now; nothing else changes |
| Session.Touch | index.js:172-178 | rotates the session iff now - lastActivityTime > 300000, and always sets lastActivityTime to now |
| Session.GetSessionId | index.js:172-180 | returns the identifier in force after the expiry check; an expired session is replaced by a fresh one that starts now |
| Session.ExpiryBoundary | index.js:174-177 | exactly the timeout does not rotate the session; one millisecond more does |
| Session.SessionStableWhileActive | index.js:172-180 | two reads within the timeout of each other return the same identifier |
| Session.RotationAfterTimeout | index.js:174-177 | after more than the timeout of inactivity the read returns a different identifier, when the fresh draw differs from the old one, and the session restarts now |
| Identity.ResolveId | index.js:393-394 | a truthy explicit value wins when it is a non-blank string and resolves to null otherwise; a falsy explicit value falls back to the stored one, and a stored "null"/"undefined" resolves to null |
| Identity.NullStringClears | index.js:393-394 | passing "null" clears a stored identifier |
| Identity.WhitespaceIdKept | index.js:393-394 | a whitespace-only identifier is kept as given |
| Identity.ResolvedNotBlank | index.js:393-394 | a resolved identifier is never "null" or "undefined"; it can be "" only as a falsy value kept from the store |
| Identity.SetUserId | index.js:283-288 | sets the user identifier and writes the identifier, or "" for null, to the store unless user-id storage is disabled, in which case the store is untouched |
| Identity.SetExternalId | index.js:290-293 | sets the external identifier and always writes the identifier, or "" for null, to the store |
| Identity.ApplyUserId | index.js:393-395 | the user identifier becomes the resolved value; the setter runs, and the store is written, only when that value differs from the current one |
| Identity.ApplyExternalId | index.js:397-399 | the same resolve-then-set rule for the external identifier |
| Identity.ApplyIdentity | index.js:393-399 | both identifiers are resolved and set. A changed user id is written to `uf-userId` as `userId \|\| ""` unless user-id storage is disabled; otherwise that key is untouched. A changed external id is written to `uf-externalId` as `externalId \|\| ""`; otherwise that key is untouched. Other store keys are untouched |
| Identity.ApplyIdentityIdempotent | index.js:393-399 | repeating the same call changes nothing more |
| Identity.GetOrCreateAnonymousId | index.js:249-261 | a non-blank anonymous identifier is kept; a blank one is replaced by a generated one; the result is never blank and is written to the store |
| Identity.GeneratedNotBlank | index.js:263-273 | a generated identifier is never blank |
| Identity.AnonymousIdIdempotent | index.js:249-261 | two consecutive calls return the same identifier and leave the same state |
| Identity.LoadStoredData | index.js:129-151 | each non-empty stored identifier replaces the in-memory one, and an absent or empty one leaves it as it was. A stored queue becomes the in-memory queue, and a non-empty unparsable text under `uf-track` empties it. Nothing else changes, and afterwards the persisted queue agrees with memory |
| Identity.UserIdSurvivesRestart | index.js:283-288 | a non-empty user identifier set with storage enabled is restored after a restart |
| Identity.UserIdNotPersistedWhenDisabled | index.js:283-288 | with storage disabled, setting the user identifier leaves the store as it was |
| Identity.ExternalIdSurvivesRestart | index.js:290-293 | a non-empty external identifier is restored after a restart |
| Delivery.BatchLength | index.js:474 | the batch takes min(10, queue length) events |
| Delivery.CheckQueue | index.js:447-451 | an attempt happens iff the queue holds at least 10 events, or the flush is forced and the queue is non-empty; otherwise the state is unchanged and nothing is scheduled |
| Delivery.ForceFlush | index.js:435-437 | a forced check attempts delivery exactly when the queue is non-empty |
| Delivery.FlushEvents | index.js:453-490 | no key, offline or three failures: no transport call and no state change. Otherwise the batch is the first min(10, n) events. Success leaves the remainder and zeroes the counter; failure leaves remainder + batch and adds one. Either way the store holds the new queue, and a retry is scheduled iff the queue is non-empty |
| Delivery.CooldownElapsed | index.js:466-471 | the cool-down timer sets the failure counter back to 0 |
| Delivery.RotationKeepsEvents | index.js:474-480 | re-appending the batch at the tail keeps the same multiset of events |
| Delivery.FlushConserves | index.js:474-483 | the queue after an attempt plus the events confirmed delivered is exactly the queue before, as a multiset |
| Delivery.CheckQueueConserves | index.js:447-451 | the same conservation holds through the gate |
| Delivery.FlushQueueOrder | index.js:474-483 | after an attempt the events outside the batch are at the front, in their old order. After a failure the batch follows them, in its own order. Without a transport call the queue is unchanged |
| Delivery.ForceFlushKeeps | index.js:435-437 | a forced flush loses no event, keeps the counter at most 3, and keeps a persisted queue persisted and in step with memory. Without an API key it changes nothing |
| Delivery.ForceFlushDrains | index.js:435-437 | a forced flush leaves the configuration alone. With a key, a good network, the circuit closed and at most ten queued events it sends the whole queue and empties it |
| Delivery.FlushKeepsCounterBounded | index.js:466-483 | an attempt never pushes the failure counter past 3 |
| Delivery.FlushKeepsStoreAgreement | index.js:474-483 | an attempt never makes the persisted queue disagree with the in-memory queue |
| Delivery.ThreeFailuresOpenCircuit | index.js:466-483 | after three failed attempts the next one makes no transport call, and after the cool-down reset a successful send goes through again |
| Delivery.FailThenSucceed | index.js:474-483 | one failure then one success, with at most one batch queued, empties the queue and zeroes the counter |
| Tracking.MergeProperties | index.js:406-409 | the merged properties have the keys of both sides; defaults win on a collision; per-call values survive elsewhere |
| Tracking.Track | index.js:376-426 | a no-op without an API key, with non-object parameters, or with an event that is not a non-blank string. Otherwise it appends exactly one event at the tail, named by the event string, stamped now, with merged properties, the resolved identifiers and a non-blank anonymous id: the one `getOrCreateAnonymousId` yields, so the stored id when it is not blank and a freshly generated UUID otherwise. The event's session is a fresh one starting now when the last activity was more than 5 minutes ago, and the current one otherwise. The state takes the event's identifiers. The store gets the identity writes, the anonymous id and the extended queue, and nothing else changes. The queue is persisted before `checkQueue(..., !addToQueue)` |
| Tracking.TrackConserves | index.js:422-424 | an accepted call adds exactly its own event to the queue plus the delivered events |
| Tracking.TrackLeavesQueuePersisted | index.js:422-424 | after an accepted call the persisted queue equals the in-memory queue, whatever the flush did |
| Tracking.TrackKeepsCounterBounded | index.js:422-424 | `track` keeps the failure counter at most 3 |
| Tracking.PlainTrackForcesFlush | index.js:404-424 | without `addToQueue`, an accepted event online with a closed circuit makes an attempt at once. The attempt carries the old queue plus the new event when fewer than 10 were waiting, and the 10 oldest events otherwise |
| Tracking.QueuedTrackWaitsForFullBatch | index.js:422-424 | with `addToQueue`, fewer than ten queued events wait; the tenth makes an attempt that carries exactly those ten |
| Tracking.TrackRun | index.js:376-426 | one `track` call accepts exactly one event iff a key is set and the parameters are valid, named by the event string. Otherwise nothing changes. Queue plus delivered equals old queue plus accepted, and the counter bound, store agreement and a persisted queue are kept. With `addToQueue` truthy and the queue staying short of ten, nothing is delivered, the event waits at the tail and the counter is unchanged. The API key, default properties, storage and enrichment switches and the current screen are untouched |
| Tracking.TrackDefers | index.js:417-424 | `track` leaves the configuration alone; an event queued with `addToQueue` onto a queue that stays short of ten waits at the tail with no attempt |
| Tracking.QueuedKeepsEvent | index.js:428-431 | `{ ...event, addToQueue: true }` keeps the item's event name and is trackable exactly when the item is. Its `addToQueue` is `true` whatever the item carried, so it never forces a flush |
| Tracking.QueuedTrack | index.js:429-431 | one `track({ ...event, addToQueue: true })` accepts an event iff a key is set and the item is valid. The accepted event carries the item's name. Otherwise nothing changes. While the queue stays short of ten nothing is delivered: the event waits at the tail. The configuration is untouched |
| Tracking.TrackEach | index.js:428-431 | with a key, the accepted events carry the names of exactly the valid items, in item order. Without one nothing happens. Queue plus delivered equals old queue plus accepted. When the old queue and the valid items together stay short of ten, the loop delivers nothing and the queue is the old queue followed by the accepted events. The counter bound, store agreement, a persisted queue and the configuration are kept |
| Tracking.CloseBatch | index.js:432-437 | the closing forced flush loses no event and keeps the invariants and the configuration; on a good network with the circuit closed it sends and empties a queue of at most ten |
| Tracking.TrackBatch | index.js:428-433 | the same names and accounting hold once the closing forced flush has run; without a key nothing changes. With a key, a good network and the circuit closed, a queue of at most ten left by the loop is emptied; when the old queue and the valid items stay short of ten, exactly the old queue followed by the new events is delivered. The configuration is untouched |
| Tracking.UpdateDefaultTrackingProperties | index.js:153-159 | only a value whose type is "object" replaces the defaults |
| Tracking.ScreenViewProperties | index.js:198-209 | screenName and previousScreen come first and may be overridden by the caller's properties; previousScreenTime is the rounded seconds on the previous screen when one was timed |
| Tracking.TrackScreenView | index.js:198-219 | the current screen and its start time are updated; with a key, a `screen_view` event carrying the composed properties overlaid by the defaults is tracked, and its forced flush always runs |
| Tracking.SessionDuration | index.js:238-239 | with a truthy session start time, the whole seconds since it started, rounded half up; otherwise null |
| Tracking.TrackAppBackground | index.js:234-243 | with a key, an `app_background` event carrying the session duration overlaid by the defaults is queued with `addToQueue`. The duration is measured before `track` reads the session. With fewer than 9 events waiting, no attempt is made |
| Tracking.AppBackgroundParamsValid | index.js:235-241 | the `app_background` argument object is always accepted by `track`, carries only `sessionDuration` as its properties, and asks to be queued rather than force-flushed |
| Tracking.ScreenViewRecordsPrevious | index.js:199-212 | the next screen view names the screen just viewed as its previous screen |
| Tracking.Identify | index.js:337-374 | same validation and identity resolution as `track`. The identifiers are updated before the properties are checked. A profile with the resolved identifiers and a non-blank anonymous id is produced only for object properties. The state change is exactly the identity setters', and for object properties also `getOrCreateAnonymousId`'s, so a usable anonymous id is kept. Only the three identifiers and their store keys can change |
| Model.Initial | index.js:7-28 | before initialization there is no key, the queue is empty, the counter is 0 and nothing is stored |
| Model.RoundSeconds | index.js:207 | `Math.round(ms / 1000)` is the integer within half a second of ms / 1000, halves rounding up |
| Lifecycle.ClearStore | index.js:316-321 | exactly the four client keys are removed from the store |
| Lifecycle.Reset | index.js:306-329 | reset first force-flushes. It then clears the user and external identifiers and removes the identity and queue keys. It stores a fresh anonymous identifier and starts a fresh session now. The in-memory queue stays as the flush left it, and no other field changes |
| Lifecycle.ResetIdentifiers | index.js:323-328 | the new anonymous and session identifiers have the version-4 layout and are not blank |
| Lifecycle.ResetEmptiesQueueIff | index.js:306-329 | the queue is empty after reset iff it was empty or the flush delivered all of it in one batch |
| Lifecycle.ResetUnpersistsLeftovers | index.js:306-321 | events left in memory by reset are no longer in the store |
| Lifecycle.AppStateChange | index.js:88-100 | foreground applies the session expiry rule and records activity; background force-flushes; other states do nothing |
| Lifecycle.ForegroundAgreesWithGetSessionId | index.js:89-96 | the foreground handler changes the state exactly as a `getSessionId` read at the same instant |
| Lifecycle.NetworkChange | index.js:105-110 | a reported connection with a non-empty queue triggers a delivery attempt; otherwise nothing happens |
| Lifecycle.Apply | index.js:234-490 | every modelled public call or timer firing (all but `trackAppOpen`) keeps the counter bound and the store agreement, and loses no event. This includes `getAnonymousId` (index.js:279-281), modelled as the step `AnonymousIdRead` because it may create and store the id. Every step except `reset` keeps a persisted queue persisted |
| Lifecycle.Run | index.js:447-490 | over any sequence of steps the counter never exceeds 3. The persisted queue, when present, equals the in-memory queue. Queue plus delivered equals the initial queue plus accepted events. Without `reset`, a persisted queue stays persisted |
| Lifecycle.UndeliveredEventsStayStored | index.js:422-490 | in a run without `reset` from a persisted queue, every accepted event not confirmed delivered is in the stored queue at the end |
| Lifecycle.AccountedEventsStayQueued | index.js:474-483 | when queue plus delivered equals the old queue plus accepted, every accepted event that was not delivered is still in the queue |
| Lifecycle.AnyRunFromStartUp | index.js:129-151 | from start-up on any persisted store, the run invariants hold for every sequence of steps |

## Left out

- Storage, connectivity, HTTP, deep links, app state and device information are calls into the host platform. They become the map `store` and the fields of `Env`. `sendRequest`'s URL, headers and body encoding are not modelled, and neither is the location-enrichment flag, which only changes the URL.
- `getDeviceProperties` and `isEmulatorOrSimulator`: opaque enrichment. Its answer is the uninterpreted value `Env.deviceData`.
- Timers: the 1500 ms interval, the 1000 ms retry and the 60 s cool-down are not callbacks. They appear as `retryScheduled`, `CircuitOpen`, and the explicit steps `FlushCall` and `CooldownFires`.
- Interleaving of asynchronous calls between suspension points is not modelled; each operation runs to completion. A retry timer that captured a queue array later replaced by `loadEventsFromStorage` is out of scope too.
- `Math.random` is replaced by given nibbles in [0, 16). Numbers are integers, so NaN and fractional values are not modelled.
- JSON serialisation: the store keeps the queue as the sequence itself. A stored text under the queue key stands for a blob that fails to parse and empties the queue. `loadEventsFromStorage` and its parse-failure recovery are not modelled separately, and neither is `saveEventsToStorage`'s swallowing of write errors.
- `initialize` option parsing, listener subscription, `cleanup`, `setNavigationRef`, `setupAutoTracking`, `getUserId` and `isApiKeyProvided` are plumbing or one-line accessors. `Model.Initial` and `Identity.LoadStoredData` cover the start-up state.
- `trackAppOpen`: public and called by the host, but its properties are the initial deep link and the device properties, both foreign calls. It is not a `Lifecycle.Step`.
- Values.Spread: spreading a string or an array contributes index-keyed entries in JavaScript; the model treats both as contributing nothing.
- Identity.SetUserId: the public setter accepts any JavaScript value; the model takes a nullable string.
- `identify`'s network request and its result are not modelled; only its state change and the profile it would send are.
- example.js (a UI demo) and index.d.ts (type declarations) are not part of this model.

=== FILE: delivery.dfy ===
/**
 The delivery engine: the flush gate `checkQueue` and one delivery attempt
 `flushEvents`. Timers are not modelled; an attempt reports instead whether
 it scheduled a retry (1000 ms later) or a reset of the failure counter after
 the cool-down (60 s later), and `CooldownElapsed` is that reset.
 */
module Delivery {
  import opened Values
  import opened Model

  /** What one call of the gate did. */
  datatype Attempt =
    | NotDue              // the gate did not open: no attempt
    | NoApiKey            // configuration error: no attempt
    | Offline             // the connectivity check failed: no attempt
    | CircuitOpen         // too many failures: no attempt, counter reset scheduled
    | Delivered(batch: seq<Event>)
    | Failed(batch: seq<Event>)
  {
    /** A transport call was made. */
    predicate Sent() {
      Delivered? || Failed?
    }

    /** The events confirmed delivered by this attempt. */
    function DeliveredEvents(): seq<Event> {
      if Delivered? then batch else []
    }
  }

  /** The state after an attempt, what the attempt did, and whether a retry was scheduled. */
  datatype Flush = Flush(st: State, attempt: Attempt, retryScheduled: bool)

  function Min(a: nat, b: nat): nat {
    if a <= b then a else b
  }

  /** The size of the batch an attempt takes from the head of the queue. */
  function BatchLength(q: seq<Event>): (k: nat)
    ensures k <= |q| && k <= BatchSize
    ensures k == BatchSize || k == |q|
  {
    Min(BatchSize, |q|)
  }

  /** `checkQueue`'s condition: a full batch is waiting, or a forced flush finds anything at all. */
  predicate Due(q: seq<Event>, force: bool) {
    |q| >= BatchSize || (force && |q| > 0)
  }

  /**
   `flushEvents`: one delivery attempt with the connectivity answer
   `connected` and the transport answer `ok`.
   */
  function FlushEvents(st: State, connected: bool, ok: bool): (r: Flush)
    ensures !r.attempt.NotDue?
    ensures st.apiKey.None? ==> r == Flush(st, NoApiKey, false)
    ensures st.apiKey.Some? && !connected ==> r == Flush(st, Offline, false)
    ensures st.apiKey.Some? && connected && st.consecutiveFailures >= MaxConsecutiveFailures
      ==> r == Flush(st, CircuitOpen, false)
    ensures r.attempt.Sent() <==> st.apiKey.Some? && connected && st.consecutiveFailures < MaxConsecutiveFailures
    ensures r.attempt.Sent() ==> r.attempt.batch == st.queue[..BatchLength(st.queue)]
    ensures r.attempt.Delivered? <==> r.attempt.Sent() && ok
    ensures r.attempt.Delivered? ==> r.st.queue == st.queue[BatchLength(st.queue)..] && r.st.consecutiveFailures == 0
    ensures r.attempt.Failed? ==>
      && r.st.queue == st.queue[BatchLength(st.queue)..] + st.queue[..BatchLength(st.queue)]
      && r.st.consecutiveFailures == st.consecutiveFailures + 1
    ensures r.attempt.Sent() ==> QueuePersisted(r.st) && (r.retryScheduled <==> |r.st.queue| > 0)
    ensures r.attempt.Sent() ==>
      r.st == st.(queue := r.st.queue, consecutiveFailures := r.st.consecutiveFailures,
                  store := st.store[QueueKey := Events(r.st.queue)])
  {
    if st.apiKey.None? then Flush(st, NoApiKey, false)
    else if !connected then Flush(st, Offline, false)
    else if st.consecutiveFailures >= MaxConsecutiveFailures then Flush(st, CircuitOpen, false)
    else
      var k := BatchLength(st.queue);
      var batch := st.queue[..k];
      var rest := st.queue[k..];
      if ok then
        var s := st.(queue := rest, store := st.store[QueueKey := Events(rest)], consecutiveFailures := 0);
        Flush(s, Delivered(batch), |rest| > 0)
      else
        var q := rest + batch;
        var s := st.(queue := q, store := st.store[QueueKey := Events(q)],
                     consecutiveFailures := st.consecutiveFailures + 1);
        Flush(s, Failed(batch), |q| > 0)
  }

  /** `checkQueue(queue, eventType, force)` */
  function CheckQueue(st: State, force: bool, connected: bool, ok: bool): (r: Flush)
    ensures r.attempt.NotDue? <==> !Due(st.queue, force)
    ensures !Due(st.queue, force) ==> r.st == st && !r.retryScheduled
    ensures Due(st.queue, force) ==> r == FlushEvents(st, connected, ok)
  {
    if Due(st.queue, force) then FlushEvents(st, connected, ok) else Flush(st, NotDue, false)
  }

  /** `flush()`: a forced check of the queue. */
  function ForceFlush(st: State, connected: bool, ok: bool): (r: Flush)
    ensures |st.queue| == 0 ==> r == Flush(st, NotDue, false)
    ensures |st.queue| > 0 ==> r == FlushEvents(st, connected, ok)
  {
    CheckQueue(st, true, connected, ok)
  }

  /** The cool-down timer firing: the failure counter goes back to zero. */
  function CooldownElapsed(st: State): (r: State)
    ensures r.consecutiveFailures == 0
    ensures r == st.(consecutiveFailures := 0)
  {
    st.(consecutiveFailures := 0)
  }

  /** The rotation of a failed attempt keeps every event: same multiset. */
  lemma RotationKeepsEvents(q: seq<Event>, k: nat)
    requires k <= |q|
    ensures multiset(q[k..] + q[..k]) == multiset(q)
  {
    assert q == q[..k] + q[k..];
  }

  /**
   No event is lost by an attempt: the queue afterwards plus the events
   confirmed delivered is exactly the queue before, as a multiset.
   */
  lemma FlushConserves(st: State, connected: bool, ok: bool)
    ensures var r := FlushEvents(st, connected, ok);
      multiset(r.st.queue) + multiset(r.attempt.DeliveredEvents()) == multiset(st.queue)
  {
    var r := FlushEvents(st, connected, ok);
    var k := BatchLength(st.queue);
    assert st.queue == st.queue[..k] + st.queue[k..];
    if r.attempt.Failed? {
      RotationKeepsEvents(st.queue, k);
    }
  }

  /** The same holds for the gated call. */
  lemma CheckQueueConserves(st: State, force: bool, connected: bool, ok: bool)
    ensures var r := CheckQueue(st, force, connected, ok);
      multiset(r.st.queue) + multiset(r.attempt.DeliveredEvents()) == multiset(st.queue)
  {
    FlushConserves(st, connected, ok);
  }

  /**
   Where each event ends up after an attempt. The events outside the batch
   move to the front, in their old order. After a failure the batch follows
   them, in its own order. Without a transport call the queue is unchanged.
   */
  lemma FlushQueueOrder(st: State, connected: bool, ok: bool)
    ensures var r := FlushEvents(st, connected, ok);
      var n := |st.queue|;
      var k := BatchLength(st.queue);
      && (!r.attempt.Sent() ==> r.st.queue == st.queue)
      && (r.attempt.Delivered? ==> |r.st.queue| == n - k)
      && (r.attempt.Failed? ==> |r.st.queue| == n)
      && (r.attempt.Sent() ==> forall i :: k <= i < n ==> r.st.queue[i - k] == st.queue[i])
      && (r.attempt.Failed? ==> forall i :: 0 <= i < k ==> r.st.queue[n - k + i] == st.queue[i])
  {
  }

  /** The failure counter never passes the ceiling of three. */
  lemma FlushKeepsCounterBounded(st: State, connected: bool, ok: bool)
    ensures CounterBounded(st) ==> CounterBounded(FlushEvents(st, connected, ok).st)
  {
  }

  /** An attempt never puts the persisted queue out of step with the in-memory one. */
  lemma FlushKeepsStoreAgreement(st: State, connected: bool, ok: bool)
    ensures StoreAgrees(st) ==> StoreAgrees(FlushEvents(st, connected, ok).st)
  {
  }

  /**
   A forced flush keeps every invariant: no event is lost, the counter stays
   within the ceiling, a persisted queue stays persisted and in step, and
   without an API key nothing happens at all.
   */
  lemma ForceFlushKeeps(st: State, connected: bool, ok: bool)
    ensures var f := ForceFlush(st, connected, ok);
      && multiset(f.st.queue) + multiset(f.attempt.DeliveredEvents()) == multiset(st.queue)
      && (CounterBounded(st) ==> CounterBounded(f.st))
      && (StoreAgrees(st) ==> StoreAgrees(f.st))
      && (QueuePersisted(st) ==> QueuePersisted(f.st))
      && (st.apiKey.None? ==> f.st == st && f.attempt.DeliveredEvents() == [])
  {
    CheckQueueConserves(st, true, connected, ok);
    FlushKeepsCounterBounded(st, connected, ok);
    FlushKeepsStoreAgreement(st, connected, ok);
  }

  /**
   A forced flush leaves the configuration alone, and on a good network with
   the circuit closed it sends a queue of at most one batch whole and empties it.
   */
  lemma ForceFlushDrains(st: State, connected: bool, ok: bool)
    ensures ConfigKept(st, ForceFlush(st, connected, ok).st)
    ensures st.apiKey.Some? && connected && ok && st.consecutiveFailures < MaxConsecutiveFailures && |st.queue| <= BatchSize
      ==> ForceFlush(st, connected, ok).st.queue == [] && ForceFlush(st, connected, ok).attempt.DeliveredEvents() == st.queue
  {
  }

  /**
   The circuit breaker: after three consecutive failed attempts the next
   attempt makes no transport call, and nothing is sent until the cool-down
   reset.
   */
  lemma ThreeFailuresOpenCircuit(st: State, connected: bool)
    requires st.apiKey.Some? && connected && st.consecutiveFailures == 0
    ensures var s1 := FlushEvents(st, connected, false).st;
      var s2 := FlushEvents(s1, connected, false).st;
      var s3 := FlushEvents(s2, connected, false).st;
      && s3.consecutiveFailures == MaxConsecutiveFailures
      && FlushEvents(s3, connected, true).attempt == CircuitOpen
      && FlushEvents(CooldownElapsed(s3), connected, true).attempt.Delivered?
  {
  }

  /**
   A transport failure followed by a success, with at most one batch queued
   and the circuit not about to open, empties the queue and clears the
   failure counter.
   */
  lemma FailThenSucceed(st: State)
    requires st.apiKey.Some? && st.consecutiveFailures + 1 < MaxConsecutiveFailures
    requires 0 < |st.queue| <= BatchSize
    ensures var r1 := ForceFlush(st, true, false);
      var r2 := ForceFlush(r1.st, true, true);
      && r1.attempt.Failed? && r1.st.queue == st.queue
      && r2.attempt == Delivered(st.queue) && r2.st.queue == [] && r2.st.consecutiveFailures == 0
      && !r2.retryScheduled
  {
    var k := BatchLength(st.queue);
    assert k == |st.queue|;
    assert st.queue[k..] + st.queue[..k] == st.queue;
    var r1 := ForceFlush(st, true, false);
    assert r1.st.queue == st.queue;
    assert r1.st.queue[..k] == st.queue && r1.st.queue[k..] == [];
  }
}

=== FILE: identity.dfy ===
/**
 Identity resolution: the user and external identifiers (resolve an explicit
 value against the stored one, then write only on change), the anonymous
 identifier, and the restore of persisted identity at start-up.
 */
module Identity {
  import opened Values
  import opened Model
  import Uuid

  /**
   `parameters.userId || stored`, then reset to null when the candidate is
   truthy but not a usable string. A falsy explicit value falls back to the
   stored one; a falsy stored value (null, or an empty string) is kept as is.
   */
  function ResolveId(explicit: Value, stored: Option<string>): (r: Option<string>)
    ensures Truthy(explicit) && explicit.Str? && !BlankText(explicit.s) ==> r == Some(explicit.s)
    ensures Truthy(explicit) && (!explicit.Str? || BlankText(explicit.s)) ==> r == None
    ensures !Truthy(explicit) && stored.Some? && stored.value != "" && BlankText(stored.value) ==> r == None
    ensures !Truthy(explicit) && !(stored.Some? && stored.value != "" && BlankText(stored.value)) ==> r == stored
  {
    var candidate := Or(explicit, FromOption(stored));
    if Truthy(candidate) && (!candidate.Str? || IsStringNullOrBlank(candidate)) then None
    else if candidate.Str? then Some(candidate.s)
    else None
  }

  /** Passing the string "null" clears whatever identifier was stored. */
  lemma NullStringClears(stored: Option<string>)
    ensures ResolveId(Str("null"), stored) == None
  {
  }

  /** A whitespace-only identifier is taken as given. */
  lemma WhitespaceIdKept(stored: Option<string>)
    ensures ResolveId(Str(" "), stored) == Some(" ")
  {
  }

  /** A resolved identifier is never one of the blank spellings, except the falsy "" kept from the store. */
  lemma ResolvedNotBlank(explicit: Value, stored: Option<string>)
    ensures ResolveId(explicit, stored).Some? ==>
      !BlankText(ResolveId(explicit, stored).value) || ResolveId(explicit, stored) == stored == Some("")
  {
  }

  /** `setUserId`: the store gets `userId || ""` unless user-id storage is disabled. */
  function SetUserId(st: State, id: Option<string>): (r: State)
    ensures r.userId == id
    ensures st.disableUserIdStorage ==> r.store == st.store
    ensures !st.disableUserIdStorage ==> r.store == st.store[UserIdKey := Text(OrEmpty(id))]
    ensures r == st.(userId := id, store := r.store)
  {
    var s := st.(userId := id);
    if st.disableUserIdStorage then s else s.(store := st.store[UserIdKey := Text(OrEmpty(id))])
  }

  /** `setExternalId`: always persisted, as `externalId || ""`. */
  function SetExternalId(st: State, id: Option<string>): (r: State)
    ensures r.externalId == id
    ensures r.store == st.store[ExternalIdKey := Text(OrEmpty(id))]
    ensures r == st.(externalId := id, store := r.store)
  {
    st.(externalId := id, store := st.store[ExternalIdKey := Text(OrEmpty(id))])
  }

  /** Resolve the user identifier and call the setter only when it differs from the current one. */
  function ApplyUserId(st: State, explicit: Value): (r: State)
    ensures r.userId == ResolveId(explicit, st.userId)
    ensures r.userId == st.userId ==> r == st
    ensures r.userId != st.userId ==> r == SetUserId(st, r.userId)
  {
    var id := ResolveId(explicit, st.userId);
    if id != st.userId then SetUserId(st, id) else st
  }

  /** Resolve the external identifier and call the setter only when it differs from the current one. */
  function ApplyExternalId(st: State, explicit: Value): (r: State)
    ensures r.externalId == ResolveId(explicit, st.externalId)
    ensures r.externalId == st.externalId ==> r == st
    ensures r.externalId != st.externalId ==> r == SetExternalId(st, r.externalId)
  {
    var id := ResolveId(explicit, st.externalId);
    if id != st.externalId then SetExternalId(st, id) else st
  }

  /** Both identifiers, user first, as `track` and `identify` do. */
  function ApplyIdentity(st: State, params: Value): (r: State)
    ensures r.userId == ResolveId(Get(params, "userId"), st.userId)
    ensures r.externalId == ResolveId(Get(params, "externalId"), st.externalId)
    ensures r == st.(userId := r.userId, externalId := r.externalId, store := r.store)
    ensures r.userId != st.userId && !st.disableUserIdStorage ==> UserIdKey in r.store && r.store[UserIdKey] == Text(OrEmpty(r.userId))
    ensures r.userId == st.userId || st.disableUserIdStorage ==>
      (UserIdKey in r.store <==> UserIdKey in st.store) && (UserIdKey in st.store ==> r.store[UserIdKey] == st.store[UserIdKey])
    ensures r.externalId != st.externalId ==> ExternalIdKey in r.store && r.store[ExternalIdKey] == Text(OrEmpty(r.externalId))
    ensures r.externalId == st.externalId ==>
      (ExternalIdKey in r.store <==> ExternalIdKey in st.store)
      && (ExternalIdKey in st.store ==> r.store[ExternalIdKey] == st.store[ExternalIdKey])
    ensures forall k :: k != UserIdKey && k != ExternalIdKey ==> (k in r.store <==> k in st.store)
    ensures forall k :: k in st.store && k != UserIdKey && k != ExternalIdKey ==> r.store[k] == st.store[k]
  {
    ApplyExternalId(ApplyUserId(st, Get(params, "userId")), Get(params, "externalId"))
  }

  /** Resolving against the value just resolved changes nothing: a second identical call writes nothing. */
  lemma ApplyIdentityIdempotent(st: State, params: Value)
    ensures ApplyIdentity(ApplyIdentity(st, params), params) == ApplyIdentity(st, params)
  {
    var u := Get(params, "userId");
    var x := Get(params, "externalId");
    ResolveIdStable(u, st.userId);
    ResolveIdStable(x, st.externalId);
  }

  lemma ResolveIdStable(explicit: Value, stored: Option<string>)
    ensures ResolveId(explicit, ResolveId(explicit, stored)) == ResolveId(explicit, stored)
  {
  }

  /**
   `getOrCreateAnonymousId`: keep a usable identifier, otherwise install a
   fresh one; in both cases write it to the store. Returns the new state and
   the identifier.
   */
  function GetOrCreateAnonymousId(st: State, e: Uuid.Entropy): (r: (State, string))
    ensures !IsStringNullOrBlank(Str(st.anonymousId)) ==> r.1 == st.anonymousId
    ensures IsStringNullOrBlank(Str(st.anonymousId)) ==> r.1 == Uuid.Generate(e)
    ensures !IsStringNullOrBlank(Str(r.1))
    ensures r.0 == st.(anonymousId := r.1, store := st.store[AnonymousIdKey := Text(r.1)])
  {
    var id := if IsStringNullOrBlank(Str(st.anonymousId)) then Uuid.Generate(e) else st.anonymousId;
    GeneratedNotBlank(e);
    (st.(anonymousId := id, store := st.store[AnonymousIdKey := Text(id)]), id)
  }

  /** A generated identifier is 36 characters long, so it never reads as blank. */
  lemma GeneratedNotBlank(e: Uuid.Entropy)
    ensures !IsStringNullOrBlank(Str(Uuid.Generate(e)))
  {
    Uuid.GenerateShape(e);
  }

  /** Two calls in a row return the same identifier and leave the same state. */
  lemma AnonymousIdIdempotent(st: State, e1: Uuid.Entropy, e2: Uuid.Entropy)
    ensures GetOrCreateAnonymousId(GetOrCreateAnonymousId(st, e1).0, e2) == GetOrCreateAnonymousId(st, e1)
  {
    var (s1, id) := GetOrCreateAnonymousId(st, e1);
    assert s1.store[AnonymousIdKey := Text(id)] == s1.store;
  }

  /**
   `loadStoredData`: each stored text that is truthy replaces the in-memory
   value, and an absent or empty one leaves it alone. A stored queue replaces
   the in-memory queue; a non-empty text in the queue's place is a blob that
   fails to parse, which empties the queue. Nothing else changes.
   */
  function LoadStoredData(st: State): (r: State)
    ensures StoredText(st.store, AnonymousIdKey) != "" ==> r.anonymousId == StoredText(st.store, AnonymousIdKey)
    ensures StoredText(st.store, AnonymousIdKey) == "" ==> r.anonymousId == st.anonymousId
    ensures StoredText(st.store, UserIdKey) != "" ==> r.userId == Some(StoredText(st.store, UserIdKey))
    ensures StoredText(st.store, UserIdKey) == "" ==> r.userId == st.userId
    ensures StoredText(st.store, ExternalIdKey) != "" ==> r.externalId == Some(StoredText(st.store, ExternalIdKey))
    ensures StoredText(st.store, ExternalIdKey) == "" ==> r.externalId == st.externalId
    ensures QueueKey in st.store && st.store[QueueKey].Events? ==> r.queue == st.store[QueueKey].events
    ensures StoredText(st.store, QueueKey) != "" ==> r.queue == []
    ensures QueueKey !in st.store || st.store[QueueKey] == Text("") ==> r.queue == st.queue
    ensures StoreAgrees(r)
    ensures r == st.(anonymousId := r.anonymousId, userId := r.userId, externalId := r.externalId, queue := r.queue)
  {
    var a := StoredText(st.store, AnonymousIdKey);
    var u := StoredText(st.store, UserIdKey);
    var x := StoredText(st.store, ExternalIdKey);
    var s1 := if a != "" then st.(anonymousId := a) else st;
    var s2 := if u != "" then s1.(userId := Some(u)) else s1;
    var s3 := if x != "" then s2.(externalId := Some(x)) else s2;
    if QueueKey in st.store && st.store[QueueKey].Events? then s3.(queue := st.store[QueueKey].events)
    else if StoredText(st.store, QueueKey) != "" then s3.(queue := []) // a blob that does not parse as a queue
    else s3
  }

  /** The text stored under `key`, or "" (falsy) when there is none. */
  function StoredText(store: map<string, Stored>, key: string): string {
    if key in store && store[key].Text? then store[key].text else ""
  }

  /** A non-empty user identifier set while storage is enabled survives a restart. */
  lemma UserIdSurvivesRestart(st: State, id: string)
    requires !st.disableUserIdStorage && id != ""
    ensures LoadStoredData(SetUserId(st, Some(id))).userId == Some(id)
  {
  }

  /** With storage disabled, a restart restores whatever was stored before, not the new identifier. */
  lemma UserIdNotPersistedWhenDisabled(st: State, id: Option<string>)
    requires st.disableUserIdStorage
    ensures SetUserId(st, id).store == st.store
    ensures LoadStoredData(SetUserId(st, id).(userId := None)).userId == LoadStoredData(st.(userId := None)).userId
  {
  }

  /** A non-empty external identifier survives a restart. */
  lemma ExternalIdSurvivesRestart(st: State, id: string)
    requires id != ""
    ensures LoadStoredData(SetExternalId(st, Some(id))).externalId == Some(id)
  {
  }
}

=== FILE: lifecycle.dfy ===
/**
 `reset`, the app-state and connectivity listeners, and the client as a
 whole: every public operation and timer callback as one `Step`, and the
 properties that hold across any sequence of steps.
 */
module Lifecycle {
  import opened Values
  import opened Model
  import Uuid
  import Identity
  import Session
  import opened Delivery
  import opened Tracking

  /** The outcome of `reset`: the final state and the forced flush it began with. */
  datatype ResetOutcome = ResetOutcome(st: State, flush: Flush)

  /** The store without the four keys `reset` removes. */
  function ClearStore(store: map<string, Stored>): (r: map<string, Stored>)
    ensures r.Keys == store.Keys - {UserIdKey, AnonymousIdKey, ExternalIdKey, QueueKey}
    ensures forall k :: k in r ==> r[k] == store[k]
  {
    store - {UserIdKey, AnonymousIdKey, ExternalIdKey, QueueKey}
  }

  /**
   `reset`: a forced flush, then the identifiers are cleared, the four stored
   keys removed, and a fresh anonymous identifier and session installed. The
   in-memory queue is not cleared.
   */
  function Reset(st: State, env: Env): (r: ResetOutcome)
    ensures r.flush == ForceFlush(st, env.isConnected, env.sendOk)
    ensures r.st.userId == None && r.st.externalId == None
    ensures r.st.anonymousId == Uuid.Generate(env.anonEntropy)
    ensures r.st.sessionId == Some(Uuid.Generate(env.sessionEntropy))
    ensures r.st.sessionStartTime == Some(env.now) && r.st.lastActivityTime == env.now
    ensures UserIdKey !in r.st.store && ExternalIdKey !in r.st.store && QueueKey !in r.st.store
    ensures AnonymousIdKey in r.st.store && r.st.store[AnonymousIdKey] == Text(r.st.anonymousId)
    ensures forall k :: k !in {UserIdKey, AnonymousIdKey, ExternalIdKey, QueueKey} ==>
      (k in r.st.store <==> k in st.store) && (k in st.store ==> r.st.store[k] == st.store[k])
    ensures r.st.queue == r.flush.st.queue
    ensures r.st.consecutiveFailures == r.flush.st.consecutiveFailures
    ensures r.st.apiKey == st.apiKey && r.st.defaultProps == st.defaultProps
    ensures r.st == r.flush.st.(userId := None, externalId := None,
                                anonymousId := Uuid.Generate(env.anonEntropy),
                                sessionId := Some(Uuid.Generate(env.sessionEntropy)),
                                sessionStartTime := Some(env.now), lastActivityTime := env.now,
                                store := ClearStore(r.flush.st.store)[AnonymousIdKey := Text(Uuid.Generate(env.anonEntropy))])
  {
    var f := ForceFlush(st, env.isConnected, env.sendOk);
    var s1 := f.st.(userId := None, anonymousId := "", externalId := None, sessionId := None);
    var s2 := s1.(store := ClearStore(s1.store));
    var anonymousId := Uuid.Generate(env.anonEntropy);
    var s3 := s2.(anonymousId := anonymousId, store := s2.store[AnonymousIdKey := Text(anonymousId)]);
    ResetOutcome(Session.SetupSessionId(s3, env.now, env.sessionEntropy), f)
  }

  /** The identifiers installed by `reset` are well-formed and usable. */
  lemma ResetIdentifiers(st: State, env: Env)
    ensures Uuid.IsV4Shape(Reset(st, env).st.anonymousId)
    ensures !IsStringNullOrBlank(Str(Reset(st, env).st.anonymousId))
    ensures Uuid.IsV4Shape(Reset(st, env).st.sessionId.value)
  {
    Uuid.GenerateShape(env.anonEntropy);
    Uuid.GenerateShape(env.sessionEntropy);
    Identity.GeneratedNotBlank(env.anonEntropy);
  }

  /**
   `reset` ends with an empty queue exactly when the queue was empty already,
   or its forced flush delivered everything in one batch.
   */
  lemma ResetEmptiesQueueIff(st: State, env: Env)
    ensures Reset(st, env).st.queue == [] <==>
      (st.queue == [] || (ForceFlush(st, env.isConnected, env.sendOk).attempt.Delivered? && |st.queue| <= BatchSize))
  {
    var f := ForceFlush(st, env.isConnected, env.sendOk);
    if st.queue != [] && f.attempt.Failed? {
      assert |f.st.queue| == |st.queue|;
    }
  }

  /**
   When the flush of `reset` does not empty the queue, the events stay in
   memory but are no longer persisted: a restart would lose them.
   */
  lemma ResetUnpersistsLeftovers(st: State, env: Env)
    ensures var r := Reset(st, env);
      StoreAgrees(r.st) && (r.st.queue != [] ==> !QueuePersisted(r.st))
  {
  }

  /** The app states the listener distinguishes. */
  datatype AppStatus = Active | Background | Inactive

  /**
   The app-state listener: coming to the foreground applies the session
   expiry rule and records activity; going to the background flushes.
   */
  function AppStateChange(st: State, next: AppStatus, env: Env): (r: Flush)
    ensures next == Active ==> r == Flush(Session.Touch(st, env.now, env.sessionEntropy), NotDue, false)
    ensures next == Background ==> r == ForceFlush(st, env.isConnected, env.sendOk)
    ensures next == Inactive ==> r == Flush(st, NotDue, false)
  {
    match next
    case Active => Flush(Session.Touch(st, env.now, env.sessionEntropy), NotDue, false)
    case Background => ForceFlush(st, env.isConnected, env.sendOk)
    case Inactive => Flush(st, NotDue, false)
  }

  /** The foreground handler and `getSessionId` agree on the session: same expiry test, same update. */
  lemma ForegroundAgreesWithGetSessionId(st: State, env: Env)
    ensures AppStateChange(st, Active, env).st == Session.GetSessionId(st, env.now, env.sessionEntropy).0
  {
  }

  /**
   The connectivity listener: a reported connection with events waiting
   triggers a flush (which checks connectivity again on its own).
   */
  function NetworkChange(st: State, connected: bool, env: Env): (r: Flush)
    ensures connected && |st.queue| > 0 ==> r == FlushEvents(st, env.isConnected, env.sendOk)
    ensures !(connected && |st.queue| > 0) ==> r == Flush(st, NotDue, false)
  {
    if connected && |st.queue| > 0 then ForceFlush(st, env.isConnected, env.sendOk) else Flush(st, NotDue, false)
  }

  /** Every public operation and timer callback of the client, except `trackAppOpen` (foreign calls only). */
  datatype Step =
    | TrackCall(params: Value, env: Env)
    | TrackBatchCall(items: seq<(Value, Env)>, last: Env)
    | ScreenViewCall(screenName: Value, properties: Value, env: Env)
    | AppBackgroundCall(env: Env)
    | IdentifyCall(params: Value, env: Env)
    | FlushCall(env: Env)              // flush(), the 1500 ms interval and the 1000 ms retry
    | CooldownFires                    // the 60 s timer set by an open circuit
    | ResetCall(env: Env)
    | AppStateCall(next: AppStatus, env: Env)
    | NetworkCall(connected: bool, env: Env)
    | SetUserIdCall(id: Option<string>)
    | SetExternalIdCall(id: Option<string>)
    | UpdateDefaultsCall(properties: Value)
    | SessionIdRead(env: Env)
    | AnonymousIdRead(env: Env)         // getAnonymousId(), which may create and store the id

  /**
   The invariants every step keeps: the queue afterwards plus the events
   delivered is the queue before plus the events accepted, the failure counter
   stays within the ceiling, and a persisted queue stays in step with memory.
   */
  predicate Keeps(st: State, r: BatchRun) {
    && multiset(r.st.queue) + multiset(r.delivered) == multiset(st.queue) + multiset(r.accepted)
    && (CounterBounded(st) ==> CounterBounded(r.st))
    && (StoreAgrees(st) ==> StoreAgrees(r.st))
  }

  /** A step's effect on the state, with the events it accepted into the queue and those it delivered. */
  function Apply(st: State, step: Step): (r: BatchRun)
    ensures multiset(r.st.queue) + multiset(r.delivered) == multiset(st.queue) + multiset(r.accepted)
    ensures CounterBounded(st) ==> CounterBounded(r.st)
    ensures StoreAgrees(st) ==> StoreAgrees(r.st)
    ensures QueuePersisted(st) && !step.ResetCall? ==> QueuePersisted(r.st)
  {
    match step
    case TrackCall(p, env) => TrackRun(st, p, env)
    case TrackBatchCall(items, last) => TrackBatch(st, items, last)
    case ScreenViewCall(name, props, env) => ScreenViewRun(st, name, props, env)
    case AppBackgroundCall(env) => TrackRun(st, AppBackgroundParams(st, env.now), env)
    case IdentifyCall(p, env) => BatchRun(Identify(st, p, env).st, [], [])
    case FlushCall(env) => FlushCallRun(st, env)
    case CooldownFires => BatchRun(CooldownElapsed(st), [], [])
    case ResetCall(env) => ResetRun(st, env)
    case AppStateCall(next, env) => AppStateRun(st, next, env)
    case NetworkCall(connected, env) => NetworkRun(st, connected, env)
    case SetUserIdCall(id) => BatchRun(Identity.SetUserId(st, id), [], [])
    case SetExternalIdCall(id) => BatchRun(Identity.SetExternalId(st, id), [], [])
    case UpdateDefaultsCall(props) => BatchRun(UpdateDefaultTrackingProperties(st, props), [], [])
    case SessionIdRead(env) => BatchRun(Session.GetSessionId(st, env.now, env.sessionEntropy).0, [], [])
    case AnonymousIdRead(env) => BatchRun(Identity.GetOrCreateAnonymousId(st, env.anonEntropy).0, [], [])
  }

  /** `trackScreenView` as a run: the current-screen update, then its `track` call. */
  function ScreenViewRun(st: State, name: Value, props: Value, env: Env): (r: BatchRun)
    ensures Keeps(st, r)
    ensures QueuePersisted(st) ==> QueuePersisted(r.st)
  {
    var sv := TrackScreenView(st, name, props, env);
    TrackRun(sv.screenState, ScreenViewParams(st, name, props, env.now), env)
  }

  /** `flush()` and the timers that call it, as a run. */
  function FlushCallRun(st: State, env: Env): (r: BatchRun)
    ensures Keeps(st, r)
    ensures QueuePersisted(st) ==> QueuePersisted(r.st)
  {
    ForceFlushKeeps(st, env.isConnected, env.sendOk);
    FlushRun(st, ForceFlush(st, env.isConnected, env.sendOk))
  }

  /** `reset()` as a run: its forced flush may deliver, and nothing is accepted. */
  function ResetRun(st: State, env: Env): (r: BatchRun)
    ensures Keeps(st, r)
  {
    ForceFlushKeeps(st, env.isConnected, env.sendOk);
    var r := Reset(st, env);
    FlushRun(st, r.flush).(st := r.st)
  }

  /** The app-state listener as a run. */
  function AppStateRun(st: State, next: AppStatus, env: Env): (r: BatchRun)
    ensures Keeps(st, r)
    ensures QueuePersisted(st) ==> QueuePersisted(r.st)
  {
    ForceFlushKeeps(st, env.isConnected, env.sendOk);
    FlushRun(st, AppStateChange(st, next, env))
  }

  /** The connectivity listener as a run. */
  function NetworkRun(st: State, connected: bool, env: Env): (r: BatchRun)
    ensures Keeps(st, r)
    ensures QueuePersisted(st) ==> QueuePersisted(r.st)
  {
    ForceFlushKeeps(st, env.isConnected, env.sendOk);
    FlushRun(st, NetworkChange(st, connected, env))
  }

  /** A step that can only flush, as a run: nothing accepted. */
  function FlushRun(st: State, f: Flush): (r: BatchRun)
    ensures r.st == f.st && r.accepted == [] && r.delivered == f.attempt.DeliveredEvents()
  {
    BatchRun(f.st, [], f.attempt.DeliveredEvents())
  }

  /** Applying a sequence of steps, accumulating accepted and delivered events. */
  function Run(st: State, steps: seq<Step>): (r: BatchRun)
    ensures multiset(r.st.queue) + multiset(r.delivered) == multiset(st.queue) + multiset(r.accepted)
    ensures CounterBounded(st) ==> CounterBounded(r.st)
    ensures StoreAgrees(st) ==> StoreAgrees(r.st)
    ensures QueuePersisted(st) && (forall i :: 0 <= i < |steps| ==> !steps[i].ResetCall?) ==> QueuePersisted(r.st)
    decreases |steps|
  {
    if steps == [] then BatchRun(st, [], [])
    else
      var first := Apply(st, steps[0]);
      var rest := Run(first.st, steps[1..]);
      assert forall i :: 0 <= i < |steps[1..]| ==> steps[1..][i] == steps[i + 1];
      Chain(st.queue, first.st.queue, rest.st.queue, first.accepted, rest.accepted, first.delivered, rest.delivered);
      BatchRun(rest.st, first.accepted + rest.accepted, first.delivered + rest.delivered)
  }

  /**
   From start-up on any persisted store, whatever the sequence of calls,
   network answers and timer firings: the failure counter stays at most three,
   the persisted queue (when present) is the in-memory queue, and every event
   ever accepted is either still queued or was confirmed delivered.
   */
  lemma AnyRunFromStartUp(apiKey: Option<string>, store: map<string, Stored>, now: int, steps: seq<Step>)
    ensures var st := Identity.LoadStoredData(Initial(now).(apiKey := apiKey, store := store));
      var r := Run(st, steps);
      && CounterBounded(r.st)
      && StoreAgrees(r.st)
      && multiset(r.st.queue) + multiset(r.delivered) == multiset(st.queue) + multiset(r.accepted)
  {
  }

  /**
   Durability: in a run without `reset`, starting from a persisted queue,
   every accepted event that was not confirmed delivered is in the persisted
   queue at the end.
   */
  lemma UndeliveredEventsStayStored(st: State, steps: seq<Step>)
    requires QueuePersisted(st)
    requires forall i :: 0 <= i < |steps| ==> !steps[i].ResetCall?
    ensures var r := Run(st, steps);
      QueuePersisted(r.st) &&
      forall e :: e in r.accepted && e !in r.delivered ==> e in r.st.store[QueueKey].events
  {
    var r := Run(st, steps);
    AccountedEventsStayQueued(st.queue, r.st.queue, r.accepted, r.delivered);
  }

  /** Under the accounting of a run, an accepted event that was not delivered is still queued. */
  lemma AccountedEventsStayQueued(q0: seq<Event>, q: seq<Event>, accepted: seq<Event>, delivered: seq<Event>)
    requires multiset(q) + multiset(delivered) == multiset(q0) + multiset(accepted)
    ensures forall e :: e in accepted && e !in delivered ==> e in q
  {
    forall e | e in accepted && e !in delivered
      ensures e in q
    {
      assert multiset(accepted)[e] > 0;
      assert (multiset(q) + multiset(delivered))[e] > 0;
      assert multiset(q)[e] > 0;
    }
  }
}

=== FILE: session.dfy ===
/**
 Session identifiers with inactivity expiry: `setupSessionId` and
 `getSessionId`. Expiry is computed lazily when the identifier is read.
 */
module Session {
  import opened Values
  import opened Model
  import Uuid

  /** `Date.now() - ufLastActivityTime > ufSessionTimeout`: strictly longer than the timeout. */
  predicate Expired(st: State, now: int) {
    now - st.lastActivityTime > SessionTimeout
  }

  /** `setupSessionId`: a fresh identifier, and the session starts now. */
  function SetupSessionId(st: State, now: int, e: Uuid.Entropy): (r: State)
    ensures r.sessionId == Some(Uuid.Generate(e))
    ensures r.sessionStartTime == Some(now) && r.lastActivityTime == now
    ensures r == st.(sessionId := r.sessionId, sessionStartTime := r.sessionStartTime, lastActivityTime := now)
  {
    st.(sessionId := Some(Uuid.Generate(e)), sessionStartTime := Some(now), lastActivityTime := now)
  }

  /**
   The session part shared by `getSessionId` and the foreground handler:
   rotate if expired, then record activity at `now`.
   */
  function Touch(st: State, now: int, e: Uuid.Entropy): (r: State)
    ensures r.lastActivityTime == now
    ensures Expired(st, now) ==> r.sessionId == Some(Uuid.Generate(e)) && r.sessionStartTime == Some(now)
    ensures !Expired(st, now) ==> r.sessionId == st.sessionId && r.sessionStartTime == st.sessionStartTime
    ensures r == st.(sessionId := r.sessionId, sessionStartTime := r.sessionStartTime, lastActivityTime := now)
  {
    var s := if Expired(st, now) then SetupSessionId(st, now, e) else st;
    s.(lastActivityTime := now)
  }

  /** `getSessionId`: the new state and the (possibly rotated) identifier it returns. */
  function GetSessionId(st: State, now: int, e: Uuid.Entropy): (r: (State, Option<string>))
    ensures r.1 == r.0.sessionId
    ensures r.0.lastActivityTime == now
    ensures Expired(st, now) ==> r.1 == Some(Uuid.Generate(e)) && r.0.sessionStartTime == Some(now)
    ensures !Expired(st, now) ==> r.1 == st.sessionId && r.0.sessionStartTime == st.sessionStartTime
    ensures r.0 == st.(sessionId := r.1, sessionStartTime := r.0.sessionStartTime, lastActivityTime := now)
  {
    var s := Touch(st, now, e);
    (s, s.sessionId)
  }

  /** Exactly the timeout does not rotate; one millisecond more does. */
  lemma ExpiryBoundary(st: State, e: Uuid.Entropy)
    ensures GetSessionId(st, st.lastActivityTime + SessionTimeout, e).1 == st.sessionId
    ensures GetSessionId(st, st.lastActivityTime + SessionTimeout + 1, e).1 == Some(Uuid.Generate(e))
  {
  }

  /**
   While the client stays active, reading the session identifier twice gives
   the same identifier, whatever randomness the second read is offered.
   */
  lemma SessionStableWhileActive(st: State, t1: int, t2: int, e1: Uuid.Entropy, e2: Uuid.Entropy)
    requires t1 <= t2 <= t1 + SessionTimeout
    ensures GetSessionId(GetSessionId(st, t1, e1).0, t2, e2).1 == GetSessionId(st, t1, e1).1
  {
  }

  /**
   A read after more than the timeout of inactivity hands out a new
   identifier: it differs from the previous one whenever the fresh draw does.
   */
  lemma RotationAfterTimeout(st: State, now: int, e: Uuid.Entropy)
    requires now > st.lastActivityTime + SessionTimeout
    requires st.sessionId != Some(Uuid.Generate(e))
    ensures GetSessionId(st, now, e).1 != st.sessionId
    ensures GetSessionId(st, now, e).0.sessionStartTime == Some(now)
  {
  }
}

=== FILE: state.dfy ===
/**
 The process-wide state of the `UserFlux` client as one immutable record, the
 queued event record, the abstract key/value store standing in for the
 device's persistent storage, and the external facts each step is given.
 */
module Model {
  import opened Values
  import Uuid

  /** Maximum number of events sent per delivery attempt (`queue.splice(0, 10)`). */
  const BatchSize: nat := 10

  /** `ufMaxConsecutiveFailures` */
  const MaxConsecutiveFailures: nat := 3

  /** `ufSessionTimeout`: five minutes in milliseconds. */
  const SessionTimeout: int := 300000

  /** Keys of the persistent store. */
  const AnonymousIdKey: string := "uf-anonymousId"
  const UserIdKey: string := "uf-userId"
  const ExternalIdKey: string := "uf-externalId"
  const QueueKey: string := "uf-track"

  /** One queued event, with the identity snapshot taken when it was tracked. */
  datatype Event = Event(
    timestamp: int,
    userId: Option<string>,
    anonymousId: string,
    externalId: Option<string>,
    sessionId: Option<string>,
    name: string,
    properties: map<string, Value>,
    deviceData: Option<Value>)

  /** A stored item: a text value, or the serialised event queue (kept as the sequence itself). */
  datatype Stored = Text(text: string) | Events(events: seq<Event>)

  datatype State = State(
    apiKey: Option<string>,
    userId: Option<string>,
    externalId: Option<string>,
    anonymousId: string,
    sessionId: Option<string>,
    sessionStartTime: Option<int>,
    lastActivityTime: int,
    queue: seq<Event>,
    consecutiveFailures: nat,
    defaultProps: map<string, Value>,
    disableUserIdStorage: bool,
    deviceDataEnrichment: bool,
    currentScreen: Value,
    screenStartTime: Option<int>,
    store: map<string, Stored>)

  /**
   The facts a step may observe from outside: the clock, the connectivity
   check, the transport's answer for a batch, the device enrichment provider's
   answer, and the random nibbles for the anonymous and session identifiers.
   */
  datatype Env = Env(
    now: int,
    isConnected: bool,
    sendOk: bool,
    deviceData: Value,
    anonEntropy: Uuid.Entropy,
    sessionEntropy: Uuid.Entropy)

  /** The static fields before `initialize`: nothing configured, empty queue, activity clock at load time. */
  function Initial(now: int): (r: State)
    ensures r.apiKey.None? && r.queue == [] && r.consecutiveFailures == 0 && r.store == map[]
    ensures r.sessionId.None? && r.lastActivityTime == now
  {
    State(None, None, None, "", None, None, now, [], 0, map[], false, true, Null, None, map[])
  }

  /** The failure counter never passes the circuit-breaker ceiling. */
  predicate CounterBounded(st: State) {
    st.consecutiveFailures <= MaxConsecutiveFailures
  }

  /** Whenever a queue is persisted, it is the in-memory queue. */
  predicate StoreAgrees(st: State) {
    QueueKey in st.store && st.store[QueueKey].Events? ==> st.store[QueueKey] == Events(st.queue)
  }

  /** The persisted queue exists and equals the in-memory queue. */
  predicate QueuePersisted(st: State) {
    QueueKey in st.store && st.store[QueueKey] == Events(st.queue)
  }

  /**
   The configuration a `track` call never touches: the API key, the default
   properties, the storage and enrichment switches, and the current screen.
   */
  predicate ConfigKept(before: State, after: State) {
    && after.apiKey == before.apiKey
    && after.defaultProps == before.defaultProps
    && after.disableUserIdStorage == before.disableUserIdStorage
    && after.deviceDataEnrichment == before.deviceDataEnrichment
    && after.currentScreen == before.currentScreen
    && after.screenStartTime == before.screenStartTime
  }

  /** `Math.round(ms / 1000)`: round half up, which is floor((ms + 500) / 1000) for integer ms. */
  function RoundSeconds(ms: int): (r: int)
    ensures 1000 * r - 500 <= ms < 1000 * r + 500
  {
    (ms + 500) / 1000
  }
}

=== FILE: tracking.dfy ===
/**
 Event construction and enqueue: `track`, `trackBatch`, `trackScreenView`,
 the default tracking properties, and `identify`, which shares the identity
 resolution of `track` but sends a profile directly instead of queueing it.
 */
module Tracking {
  import opened Values
  import opened Model
  import Uuid
  import Identity
  import Session
  import opened Delivery

  /** `parameters` passes `!parameters || typeof parameters !== "object"`. */
  predicate ValidParams(p: Value) {
    Truthy(p) && IsObjectType(p)
  }

  /** `event` passes `!event || typeof event !== "string" || isStringNullOrBlank(event)`. */
  predicate ValidEventName(v: Value) {
    Truthy(v) && v.Str? && !IsStringNullOrBlank(v)
  }

  /** The argument object is accepted by `track` (given an API key). */
  predicate Trackable(p: Value) {
    ValidParams(p) && ValidEventName(Get(p, "event"))
  }

  /** `parameters.properties || {}` */
  function CallProperties(p: Value): Value {
    Or(Get(p, "properties"), Obj(map[]))
  }

  /** `{...properties, ...ufDefaultTrackingProperties}`: the defaults win on a key collision. */
  function MergeProperties(properties: Value, defaults: map<string, Value>): (r: map<string, Value>)
    ensures r.Keys == Spread(properties).Keys + defaults.Keys
    ensures forall k :: k in defaults ==> r[k] == defaults[k]
    ensures forall k :: k in Spread(properties) && k !in defaults ==> r[k] == Spread(properties)[k]
  {
    Overlay(Spread(properties), defaults)
  }

  /** `parameters.enrichDeviceData !== false && ufDeviceDataEnrichmentEnabled` */
  predicate EnrichDevice(st: State, p: Value) {
    Get(p, "enrichDeviceData") != Bool(false) && st.deviceDataEnrichment
  }

  /** `addToQueue || false`, negated as the force flag of `checkQueue`. */
  predicate ForceAfterTrack(p: Value) {
    !Truthy(Get(p, "addToQueue"))
  }

  /**
   The outcome of `track`: rejected (a no-op), or the appended event, the
   state right after it was appended and persisted, and the gated flush that
   followed.
   */
  datatype Tracked = Rejected | Accepted(event: Event, queued: State, flush: Flush)

  /** The state after a `track` call. */
  function After(st: State, t: Tracked): State {
    if t.Accepted? then t.flush.st else st
  }

  /** `track(parameters)` */
  function Track(st: State, p: Value, env: Env): (r: Tracked)
    ensures r.Rejected? <==> st.apiKey.None? || !Trackable(p)
    ensures r.Accepted? ==>
      && r.event.name == Get(p, "event").s
      && r.event.timestamp == env.now
      && r.event.properties == MergeProperties(CallProperties(p), st.defaultProps)
      && r.event.userId == ResolveIdOf(st.userId, p, "userId")
      && r.event.externalId == ResolveIdOf(st.externalId, p, "externalId")
      && !IsStringNullOrBlank(Str(r.event.anonymousId))
      && (!IsStringNullOrBlank(Str(st.anonymousId)) ==> r.event.anonymousId == st.anonymousId)
      && r.event.anonymousId == Identity.GetOrCreateAnonymousId(Identity.ApplyIdentity(st, p), env.anonEntropy).1
      && r.event.deviceData == (if EnrichDevice(st, p) then Some(env.deviceData) else None)
    ensures r.Accepted? && Session.Expired(st, env.now) ==>
      r.event.sessionId == Some(Uuid.Generate(env.sessionEntropy)) && r.queued.sessionStartTime == Some(env.now)
    ensures r.Accepted? && !Session.Expired(st, env.now) ==>
      r.event.sessionId == st.sessionId && r.queued.sessionStartTime == st.sessionStartTime
    ensures r.Accepted? ==>
      && r.queued.queue == st.queue + [r.event]
      && QueuePersisted(r.queued)
      && r.queued == st.(userId := r.event.userId, externalId := r.event.externalId,
                         anonymousId := r.event.anonymousId, sessionId := r.event.sessionId,
                         sessionStartTime := r.queued.sessionStartTime, lastActivityTime := env.now,
                         queue := st.queue + [r.event],
                         store := Identity.ApplyIdentity(st, p).store[AnonymousIdKey := Text(r.event.anonymousId)]
                                                                     [QueueKey := Events(st.queue + [r.event])])
      && r.flush == CheckQueue(r.queued, ForceAfterTrack(p), env.isConnected, env.sendOk)
  {
    if st.apiKey.None? || !ValidParams(p) || !ValidEventName(Get(p, "event")) then Rejected
    else
      var s1 := Identity.ApplyIdentity(st, p);
      var properties := CallProperties(p);
      var finalProperties := MergeProperties(properties, st.defaultProps);
      var (s2, anonymousId) := Identity.GetOrCreateAnonymousId(s1, env.anonEntropy);
      var (s3, sessionId) := Session.GetSessionId(s2, env.now, env.sessionEntropy);
      var deviceData := if EnrichDevice(st, p) then Some(env.deviceData) else None;
      var e := Event(env.now, s1.userId, anonymousId, s1.externalId, sessionId,
                     Get(p, "event").s, finalProperties, deviceData);
      var q := s3.queue + [e];
      var s4 := s3.(queue := q, store := s3.store[QueueKey := Events(q)]);
      Accepted(e, s4, CheckQueue(s4, ForceAfterTrack(p), env.isConnected, env.sendOk))
  }

  /** The identifier `track` resolves for the field `key` of the argument object. */
  function ResolveIdOf(stored: Option<string>, p: Value, key: string): Option<string> {
    Identity.ResolveId(Get(p, key), stored)
  }

  /**
   A call accepted by `track` adds exactly its own event: the queue afterwards
   plus what the flush delivered is the queue before plus the new event.
   */
  lemma TrackConserves(st: State, p: Value, env: Env)
    ensures var r := Track(st, p, env);
      r.Accepted? ==>
        multiset(r.flush.st.queue) + multiset(r.flush.attempt.DeliveredEvents())
          == multiset(st.queue) + multiset{r.event}
  {
    var r := Track(st, p, env);
    if r.Accepted? {
      CheckQueueConserves(r.queued, ForceAfterTrack(p), env.isConnected, env.sendOk);
    }
  }

  /** After `track` the persisted queue is the in-memory queue, whatever the flush did. */
  lemma TrackLeavesQueuePersisted(st: State, p: Value, env: Env)
    ensures Track(st, p, env).Accepted? ==> QueuePersisted(After(st, Track(st, p, env)))
  {
  }

  /** `track` keeps the failure counter within the ceiling. */
  lemma TrackKeepsCounterBounded(st: State, p: Value, env: Env)
    ensures CounterBounded(st) ==> CounterBounded(After(st, Track(st, p, env)))
  {
    var r := Track(st, p, env);
    if r.Accepted? && Due(r.queued.queue, ForceAfterTrack(p)) {
      FlushKeepsCounterBounded(r.queued, env.isConnected, env.sendOk);
    }
  }

  /**
   `track` leaves the configuration alone, and an event tracked with
   `addToQueue` onto a queue that stays short of a batch just waits.
   */
  lemma TrackDefers(st: State, p: Value, env: Env)
    ensures var r := Track(st, p, env);
      && ConfigKept(st, After(st, r))
      && (r.Accepted? && !ForceAfterTrack(p) && |st.queue| + 1 < BatchSize ==>
            && r.flush.attempt.DeliveredEvents() == []
            && r.flush.st.queue == st.queue + [r.event]
            && r.flush.st.consecutiveFailures == st.consecutiveFailures)
  {
  }

  /** A minimal argument object `{ event: name }`. */
  function EventOnly(name: string): Value {
    Obj(map["event" := Str(name)])
  }

  /**
   `addToQueue` defaults to false, so a plain `track` forces a flush: online,
   with an API key and a closed circuit, an attempt carrying the head batch
   of the extended queue is made at once. The new event is part of it only
   when fewer than ten events were already waiting.
   */
  lemma PlainTrackForcesFlush(st: State, name: string, env: Env)
    requires st.apiKey.Some? && !BlankText(name)
    requires env.isConnected && st.consecutiveFailures < MaxConsecutiveFailures
    ensures var r := Track(st, EventOnly(name), env);
      && r.Accepted?
      && r.flush.attempt.Sent()
      && r.flush.attempt.batch == (st.queue + [r.event])[..BatchLength(st.queue + [r.event])]
      && (|st.queue| < BatchSize ==> r.flush.attempt.batch == st.queue + [r.event])
      && (|st.queue| >= BatchSize ==> r.flush.attempt.batch == st.queue[..BatchSize])
  {
    assert Get(EventOnly(name), "event") == Str(name);
    assert Get(EventOnly(name), "addToQueue") == Undefined;
    var r := Track(st, EventOnly(name), env);
    var q := st.queue + [r.event];
    if |st.queue| < BatchSize {
      assert q[..|q|] == q;
    } else {
      assert q[..BatchSize] == st.queue[..BatchSize];
    }
  }

  /** `{ ...event, addToQueue: true }` */
  function Queued(item: Value): Value {
    Obj(Overlay(Spread(item), map["addToQueue" := Bool(true)]))
  }

  /**
   With `addToQueue` set, the ninth queued event waits; the tenth fills a batch
   and the attempt carries exactly the ten queued events.
   */
  lemma QueuedTrackWaitsForFullBatch(st: State, item: Value, env: Env)
    requires st.apiKey.Some? && Trackable(item)
    ensures var r := Track(st, Queued(item), env);
      && r.Accepted?
      && (|st.queue| < BatchSize - 1 ==> r.flush.attempt == NotDue && r.flush.st.queue == st.queue + [r.event])
      && (|st.queue| == BatchSize - 1 && env.isConnected && st.consecutiveFailures < MaxConsecutiveFailures
          ==> r.flush.attempt.Sent() && r.flush.attempt.batch == st.queue + [r.event])
  {
    var q := Queued(item);
    assert Get(q, "addToQueue") == Bool(true);
    assert Get(q, "event") == Get(item, "event");
    var r := Track(st, q, env);
    assert (st.queue + [r.event])[..|st.queue| + 1] == st.queue + [r.event];
  }

  /** The result of `trackBatch`: final state, the events it accepted, and the events delivered meanwhile. */
  datatype BatchRun = BatchRun(st: State, accepted: seq<Event>, delivered: seq<Event>)

  /** The names of a sequence of events, in order. */
  function Names(es: seq<Event>): (r: seq<string>)
    ensures |r| == |es|
    decreases |es|
  {
    if es == [] then [] else [es[0].name] + Names(es[1..])
  }

  lemma {:induction false} NamesAppend(a: seq<Event>, b: seq<Event>)
    ensures Names(a + b) == Names(a) + Names(b)
    decreases |a|
  {
    if a == [] {
      assert a + b == b;
    } else {
      assert (a + b)[0] == a[0];
      assert (a + b)[1..] == a[1..] + b;
      NamesAppend(a[1..], b);
    }
  }

  /** The event name of an item `track` accepts. */
  function EventName(item: Value): string
    requires Trackable(item)
  {
    Get(item, "event").s
  }

  /** The names of the items `track` accepts (given an API key), in the order of the items. */
  function TrackableNames(items: seq<(Value, Env)>): seq<string>
    decreases |items|
  {
    if items == [] then []
    else (if Trackable(items[0].0) then [EventName(items[0].0)] else []) + TrackableNames(items[1..])
  }

  /** The events of a `trackBatch` loop, each `track` call seeing its own environment. */
  function TrackEach(st: State, items: seq<(Value, Env)>): (r: BatchRun)
    ensures multiset(r.st.queue) + multiset(r.delivered) == multiset(st.queue) + multiset(r.accepted)
    ensures |r.accepted| <= |items|
    ensures r.st.apiKey == st.apiKey
    ensures st.apiKey.Some? ==> Names(r.accepted) == TrackableNames(items)
    ensures st.apiKey.Some? && (forall i :: 0 <= i < |items| ==> Trackable(items[i].0)) ==> |r.accepted| == |items|
    ensures st.apiKey.None? ==> r == BatchRun(st, [], [])
    ensures |st.queue| + |r.accepted| < BatchSize ==>
      r.delivered == [] && r.st.queue == st.queue + r.accepted && r.st.consecutiveFailures == st.consecutiveFailures
    ensures st.apiKey.Some? && |st.queue| + |TrackableNames(items)| < BatchSize ==>
      r.delivered == [] && r.st.queue == st.queue + r.accepted
    ensures ConfigKept(st, r.st)
    ensures CounterBounded(st) ==> CounterBounded(r.st)
    ensures StoreAgrees(st) ==> StoreAgrees(r.st)
    ensures QueuePersisted(st) ==> QueuePersisted(r.st)
    decreases |items|
  {
    if items == [] then BatchRun(st, [], [])
    else
      var first := QueuedTrack(st, items[0].0, items[0].1);
      var rest := TrackEach(first.st, items[1..]);
      assert forall i :: 0 <= i < |items[1..]| ==> items[1..][i] == items[i + 1];
      Chain(st.queue, first.st.queue, rest.st.queue, first.accepted, rest.accepted, first.delivered, rest.delivered);
      NamesAppend(first.accepted, rest.accepted);
      Deferred(st, first, rest);
      BatchRun(rest.st, first.accepted + rest.accepted, first.delivered + rest.delivered)
  }

  /**
   A single `track` call as a run: the event it accepted, if any, and the
   events its flush delivered.
   */
  function TrackRun(st: State, p: Value, env: Env): (r: BatchRun)
    ensures multiset(r.st.queue) + multiset(r.delivered) == multiset(st.queue) + multiset(r.accepted)
    ensures |r.accepted| <= 1
    ensures r.st.apiKey == st.apiKey
    ensures |r.accepted| == 1 <==> st.apiKey.Some? && Trackable(p)
    ensures st.apiKey.None? || !Trackable(p) ==> r == BatchRun(st, [], [])
    ensures |r.accepted| == 1 ==> Trackable(p) && Names(r.accepted) == [EventName(p)]
    ensures !ForceAfterTrack(p) && |st.queue| + |r.accepted| < BatchSize ==>
      r.delivered == [] && r.st.queue == st.queue + r.accepted && r.st.consecutiveFailures == st.consecutiveFailures
    ensures ConfigKept(st, r.st)
    ensures CounterBounded(st) ==> CounterBounded(r.st)
    ensures StoreAgrees(st) ==> StoreAgrees(r.st)
    ensures QueuePersisted(st) ==> QueuePersisted(r.st)
  {
    var t := Track(st, p, env);
    TrackConserves(st, p, env);
    TrackKeepsCounterBounded(st, p, env);
    TrackLeavesQueuePersisted(st, p, env);
    TrackDefers(st, p, env);
    if t.Accepted? then BatchRun(t.flush.st, [t.event], t.flush.attempt.DeliveredEvents())
    else BatchRun(st, [], [])
  }

  /** One iteration of the `trackBatch` loop: `track({ ...item, addToQueue: true })`. */
  function QueuedTrack(st: State, item: Value, env: Env): (r: BatchRun)
    ensures multiset(r.st.queue) + multiset(r.delivered) == multiset(st.queue) + multiset(r.accepted)
    ensures |r.accepted| <= 1
    ensures r.st.apiKey == st.apiKey
    ensures st.apiKey.Some? && Trackable(item) ==> |r.accepted| == 1
    ensures st.apiKey.None? || !Trackable(item) ==> r == BatchRun(st, [], [])
    ensures |r.accepted| == 1 ==> Trackable(item) && Names(r.accepted) == [EventName(item)]
    ensures |st.queue| + |r.accepted| < BatchSize ==>
      r.delivered == [] && r.st.queue == st.queue + r.accepted && r.st.consecutiveFailures == st.consecutiveFailures
    ensures ConfigKept(st, r.st)
    ensures CounterBounded(st) ==> CounterBounded(r.st)
    ensures StoreAgrees(st) ==> StoreAgrees(r.st)
    ensures QueuePersisted(st) ==> QueuePersisted(r.st)
  {
    QueuedKeepsEvent(item);
    TrackRun(st, Queued(item), env)
  }

  /**
   Spreading the item into `{ ...event, addToQueue: true }` keeps its event
   name, the result is trackable exactly when the item is, and it never
   forces a flush, whatever `addToQueue` the item carried.
   */
  lemma QueuedKeepsEvent(item: Value)
    ensures Get(Queued(item), "event") == Get(item, "event")
    ensures Trackable(Queued(item)) <==> Trackable(item)
    ensures Trackable(item) ==> EventName(Queued(item)) == EventName(item)
    ensures !ForceAfterTrack(Queued(item))
  {
    assert Get(Queued(item), "addToQueue") == Bool(true);
    assert "event" != "addToQueue" by { assert "event"[0] != "addToQueue"[0]; }
    if !item.Obj? {
      assert Spread(item) == map[];
      assert "event" !in Overlay(Spread(item), map["addToQueue" := Bool(true)]);
    }
  }

  /** Two runs that each leave their events waiting compose into one that does. */
  lemma Deferred(st: State, first: BatchRun, rest: BatchRun)
    requires |st.queue| + |first.accepted| < BatchSize ==>
      first.delivered == [] && first.st.queue == st.queue + first.accepted
      && first.st.consecutiveFailures == st.consecutiveFailures
    requires |first.st.queue| + |rest.accepted| < BatchSize ==>
      rest.delivered == [] && rest.st.queue == first.st.queue + rest.accepted
      && rest.st.consecutiveFailures == first.st.consecutiveFailures
    requires ConfigKept(st, first.st) && ConfigKept(first.st, rest.st)
    ensures |st.queue| + |first.accepted + rest.accepted| < BatchSize ==>
      first.delivered + rest.delivered == [] && rest.st.queue == st.queue + (first.accepted + rest.accepted)
      && rest.st.consecutiveFailures == st.consecutiveFailures
    ensures ConfigKept(st, rest.st)
  {
    if |st.queue| + |first.accepted + rest.accepted| < BatchSize {
      assert st.queue + first.accepted + rest.accepted == st.queue + (first.accepted + rest.accepted);
    }
  }

  /** Accounting of two consecutive steps composes. */
  lemma Chain(q0: seq<Event>, q1: seq<Event>, q2: seq<Event>,
              a1: seq<Event>, a2: seq<Event>, d1: seq<Event>, d2: seq<Event>)
    requires multiset(q1) + multiset(d1) == multiset(q0) + multiset(a1)
    requires multiset(q2) + multiset(d2) == multiset(q1) + multiset(a2)
    ensures multiset(q2) + multiset(d1 + d2) == multiset(q0) + multiset(a1 + a2)
  {
    calc {
      multiset(q2) + multiset(d1 + d2);
      multiset(q2) + multiset(d2) + multiset(d1);
      multiset(q1) + multiset(a2) + multiset(d1);
      multiset(q1) + multiset(d1) + multiset(a2);
      multiset(q0) + multiset(a1) + multiset(a2);
      multiset(q0) + multiset(a1 + a2);
    }
  }

  /**
   The closing `flush()` of `trackBatch`, seen in the environment `last`,
   after the loop's run. On a good network with the circuit closed it empties
   a queue of at most one batch, delivering exactly that queue.
   */
  function CloseBatch(run: BatchRun, last: Env): (r: BatchRun)
    ensures multiset(r.st.queue) + multiset(r.delivered) == multiset(run.st.queue) + multiset(run.delivered)
    ensures r.accepted == run.accepted
    ensures run.st.apiKey.None? ==> r == run
    ensures (run.st.apiKey.Some? && last.isConnected && last.sendOk
             && run.st.consecutiveFailures < MaxConsecutiveFailures && |run.st.queue| <= BatchSize)
      ==> r.st.queue == [] && r.delivered == run.delivered + run.st.queue
    ensures ConfigKept(run.st, r.st)
    ensures CounterBounded(run.st) ==> CounterBounded(r.st)
    ensures StoreAgrees(run.st) ==> StoreAgrees(r.st)
    ensures QueuePersisted(run.st) ==> QueuePersisted(r.st)
  {
    var f := ForceFlush(run.st, last.isConnected, last.sendOk);
    ForceFlushKeeps(run.st, last.isConnected, last.sendOk);
    ForceFlushDrains(run.st, last.isConnected, last.sendOk);
    assert run.delivered + [] == run.delivered;
    BatchRun(f.st, run.accepted, run.delivered + f.attempt.DeliveredEvents())
  }

  /**
   `trackBatch(events)`: every event queued with `addToQueue: true`, then a
   forced flush seen in the environment `last`.
   */
  function TrackBatch(st: State, items: seq<(Value, Env)>, last: Env): (r: BatchRun)
    ensures multiset(r.st.queue) + multiset(r.delivered) == multiset(st.queue) + multiset(r.accepted)
    ensures st.apiKey.Some? ==> Names(r.accepted) == TrackableNames(items)
    ensures st.apiKey.Some? && (forall i :: 0 <= i < |items| ==> Trackable(items[i].0)) ==> |r.accepted| == |items|
    ensures st.apiKey.None? ==> r.accepted == [] && r.st == st
    ensures var run := TrackEach(st, items);
      (st.apiKey.Some? && last.isConnected && last.sendOk && run.st.consecutiveFailures < MaxConsecutiveFailures
       && |run.st.queue| <= BatchSize) ==> r.st.queue == []
    ensures (st.apiKey.Some? && |st.queue| + |TrackableNames(items)| < BatchSize
             && last.isConnected && last.sendOk && st.consecutiveFailures < MaxConsecutiveFailures)
      ==> r.st.queue == [] && r.delivered == st.queue + r.accepted
    ensures ConfigKept(st, r.st)
    ensures CounterBounded(st) ==> CounterBounded(r.st)
    ensures StoreAgrees(st) ==> StoreAgrees(r.st)
    ensures QueuePersisted(st) ==> QueuePersisted(r.st)
  {
    var run := TrackEach(st, items);
    assert |Names(run.accepted)| == |run.accepted|;
    CloseBatch(run, last)
  }

  /** `updateDefaultTrackingProperties`: replaced only by a value whose type is "object". */
  function UpdateDefaultTrackingProperties(st: State, v: Value): (r: State)
    ensures !IsObjectType(v) ==> r == st
    ensures v.Obj? ==> r == st.(defaultProps := v.fields)
    ensures IsObjectType(v) && !v.Obj? ==> r == st.(defaultProps := map[])
  {
    if !IsObjectType(v) then st else st.(defaultProps := Spread(v))
  }

  /**
   `{ screenName, previousScreen: ufCurrentScreen, ...properties }`, plus
   `previousScreenTime` in seconds when a previous screen and its start time
   are known.
   */
  function ScreenViewProperties(st: State, screenName: Value, properties: Value, now: int): (r: map<string, Value>)
    ensures r.Keys == {"screenName", "previousScreen"} + Spread(properties).Keys
      + (if ScreenTimed(st) then {"previousScreenTime"} else {})
    ensures "screenName" !in Spread(properties) ==> r["screenName"] == screenName
    ensures "previousScreen" !in Spread(properties) ==> r["previousScreen"] == st.currentScreen
    ensures forall k :: k in Spread(properties) && k != "previousScreenTime" ==> r[k] == Spread(properties)[k]
    ensures ScreenTimed(st) ==> r["previousScreenTime"] == Num(RoundSeconds(now - st.screenStartTime.value))
    ensures !ScreenTimed(st) ==> r == Overlay(map["screenName" := screenName, "previousScreen" := st.currentScreen], Spread(properties))
  {
    var base := Overlay(map["screenName" := screenName, "previousScreen" := st.currentScreen], Spread(properties));
    if ScreenTimed(st) then base["previousScreenTime" := Num(RoundSeconds(now - st.screenStartTime.value))]
    else base
  }

  /** `ufCurrentScreen && ufScreenStartTime` */
  predicate ScreenTimed(st: State) {
    Truthy(st.currentScreen) && st.screenStartTime.Some? && st.screenStartTime.value != 0
  }

  /** The outcome of `trackScreenView`: the state after the current-screen update, and the `track` call. */
  datatype ScreenView = ScreenView(screenState: State, tracked: Tracked)

  /** The argument object `trackScreenView` passes to `track`. */
  function ScreenViewParams(st: State, screenName: Value, properties: Value, now: int): Value {
    Obj(map["event" := Str("screen_view"),
            "properties" := Obj(ScreenViewProperties(st, screenName, properties, now)),
            "addToQueue" := Bool(false)])
  }

  /** `trackScreenView(screenName, properties)` */
  function TrackScreenView(st: State, screenName: Value, properties: Value, env: Env): (r: ScreenView)
    ensures r.screenState == st.(currentScreen := screenName, screenStartTime := Some(env.now))
    ensures r.tracked == Track(r.screenState, ScreenViewParams(st, screenName, properties, env.now), env)
    ensures r.tracked.Accepted? <==> st.apiKey.Some?
    ensures r.tracked.Accepted? ==>
      && r.tracked.event.name == "screen_view"
      && r.tracked.event.properties
         == Overlay(ScreenViewProperties(st, screenName, properties, env.now), st.defaultProps)
      && !r.tracked.flush.attempt.NotDue?
  {
    var svp := ScreenViewProperties(st, screenName, properties, env.now);
    var s1 := st.(currentScreen := screenName, screenStartTime := Some(env.now));
    var p := ScreenViewParams(st, screenName, properties, env.now);
    assert Get(p, "event") == Str("screen_view");
    assert Get(p, "properties") == Obj(svp);
    assert Get(p, "addToQueue") == Bool(false);
    assert !BlankText("screen_view") by {
      assert "screen_view"[0] == 's';
      assert "null"[0] == 'n';
      assert "undefined"[0] == 'u';
    }
    ScreenView(s1, Track(s1, p, env))
  }

  /** The second of two screen views names the first as its previous screen. */
  lemma ScreenViewRecordsPrevious(st: State, a: string, b: string, env1: Env, env2: Env)
    ensures var s := TrackScreenView(st, Str(a), Obj(map[]), env1).screenState;
      ScreenViewProperties(s, Str(b), Obj(map[]), env2.now)["previousScreen"] == Str(a)
  {
  }

  /**
   `sessionDuration` of `trackAppBackground`: the whole seconds since the
   session started, or null when no truthy start time is known.
   */
  function SessionDuration(st: State, now: int): (r: Value)
    ensures st.sessionStartTime.Some? && st.sessionStartTime.value != 0 ==>
      r.Num? && 1000 * r.n - 500 <= now - st.sessionStartTime.value < 1000 * r.n + 500
    ensures st.sessionStartTime.None? || st.sessionStartTime.value == 0 ==> r == Null
  {
    if st.sessionStartTime.Some? && st.sessionStartTime.value != 0
    then Num(RoundSeconds(now - st.sessionStartTime.value))
    else Null
  }

  /** The argument object `trackAppBackground` passes to `track`. */
  function AppBackgroundParams(st: State, now: int): Value {
    Obj(map["event" := Str("app_background"),
            "properties" := Obj(map["sessionDuration" := SessionDuration(st, now)]),
            "addToQueue" := Bool(true)])
  }

  /**
   `trackAppBackground()`: a queued `app_background` event carrying the
   session duration measured before `track` reads the session.
   */
  function TrackAppBackground(st: State, env: Env): (r: Tracked)
    ensures r == Track(st, AppBackgroundParams(st, env.now), env)
    ensures r.Accepted? <==> st.apiKey.Some?
    ensures r.Accepted? ==>
      && r.event.name == "app_background"
      && r.event.properties == Overlay(map["sessionDuration" := SessionDuration(st, env.now)], st.defaultProps)
      && r.flush == CheckQueue(r.queued, false, env.isConnected, env.sendOk)
      && (|st.queue| + 1 < BatchSize ==> r.flush.attempt.NotDue? && r.flush.st == r.queued)
  {
    AppBackgroundParamsValid(st, env.now);
    Track(st, AppBackgroundParams(st, env.now), env)
  }

  /** The argument object of `trackAppBackground` is always trackable and asks to be queued. */
  lemma AppBackgroundParamsValid(st: State, now: int)
    ensures var p := AppBackgroundParams(st, now);
      && Trackable(p)
      && EventName(p) == "app_background"
      && CallProperties(p) == Obj(map["sessionDuration" := SessionDuration(st, now)])
      && !ForceAfterTrack(p)
  {
    var p := AppBackgroundParams(st, now);
    assert Get(p, "event") == Str("app_background");
    assert Get(p, "properties") == Obj(map["sessionDuration" := SessionDuration(st, now)]);
    assert Get(p, "addToQueue") == Bool(true);
    assert !BlankText("app_background") by {
      assert "app_background"[0] == 'a';
      assert "null"[0] == 'n';
      assert "undefined"[0] == 'u';
    }
  }

  /** The profile payload `identify` sends. */
  datatype Profile = Profile(
    userId: Option<string>,
    externalId: Option<string>,
    anonymousId: string,
    properties: Value,
    deviceData: Option<Value>)

  /** The outcome of `identify`: the new state and the profile sent, if any. */
  datatype Identified = Identified(st: State, profile: Option<Profile>)

  /**
   `identify(parameters)`. The identity setters run before the properties
   are checked, so invalid properties still update the identifiers.
   */
  function Identify(st: State, p: Value, env: Env): (r: Identified)
    ensures st.apiKey.None? || !ValidParams(p) ==> r == Identified(st, None)
    ensures st.apiKey.Some? && ValidParams(p) ==>
      && r.st.userId == ResolveIdOf(st.userId, p, "userId")
      && r.st.externalId == ResolveIdOf(st.externalId, p, "externalId")
    ensures r.profile.Some? <==> st.apiKey.Some? && ValidParams(p) && IsObjectType(CallProperties(p))
    ensures r.profile.Some? ==>
      && r.profile.value.userId == r.st.userId
      && r.profile.value.externalId == r.st.externalId
      && r.profile.value.anonymousId == r.st.anonymousId
      && !IsStringNullOrBlank(Str(r.profile.value.anonymousId))
      && r.profile.value.properties == CallProperties(p)
      && r.profile.value.deviceData == (if EnrichDevice(st, p) then Some(env.deviceData) else None)
    ensures st.apiKey.Some? && ValidParams(p) && r.profile.None? ==> r.st == Identity.ApplyIdentity(st, p)
    ensures r.profile.Some? ==> r.st == Identity.GetOrCreateAnonymousId(Identity.ApplyIdentity(st, p), env.anonEntropy).0
    ensures !IsStringNullOrBlank(Str(st.anonymousId)) ==> r.st.anonymousId == st.anonymousId
    ensures r.st == st.(userId := r.st.userId, externalId := r.st.externalId,
                        anonymousId := r.st.anonymousId, store := r.st.store)
    ensures forall k :: k != UserIdKey && k != ExternalIdKey && k != AnonymousIdKey ==>
      (k in r.st.store <==> k in st.store)
    ensures forall k :: k in st.store && k != UserIdKey && k != ExternalIdKey && k != AnonymousIdKey ==>
      r.st.store[k] == st.store[k]
  {
    if st.apiKey.None? || !ValidParams(p) then Identified(st, None)
    else
      var s1 := Identity.ApplyIdentity(st, p);
      var properties := CallProperties(p);
      if !IsObjectType(properties) then Identified(s1, None)
      else
        var (s2, anonymousId) := Identity.GetOrCreateAnonymousId(s1, env.anonEntropy);
        var deviceData := if EnrichDevice(st, p) then Some(env.deviceData) else None;
        Identified(s2, Some(Profile(s1.userId, s1.externalId, anonymousId, properties, deviceData)))
  }
}

=== FILE: uuid.dfy ===
/**
 `generateUUID`: every `x` of the template
 "xxxxxxxx-xxxx-4xxx-yxxx-xxxxxxxxxxxx" is replaced by a random hex digit and
 the `y` by `(r & 0x3) | 0x8`, all in lower case. The randomness is an input:
 one nibble in [0, 16) per placeholder, consumed left to right.
 */
module Uuid {

  type Nibble = x: int | 0 <= x < 16

  /** The template has 31 placeholders (30 `x` and one `y`). */
  type Entropy = s: seq<Nibble> | |s| == 31 witness seq(31, _ => 0)

  /** A run of `n` placeholders `x`. */
  function Xs(n: nat): string {
    seq(n, _ => 'x')
  }

  /** "xxxxxxxx-xxxx-4xxx-yxxx-xxxxxxxxxxxx", written as its groups. */
  const Template: string := Xs(8) + "-" + Xs(4) + "-4" + Xs(3) + "-y" + Xs(3) + "-" + Xs(12)

  const HexDigits: string := "0123456789abcdef"

  predicate IsLowerHex(c: char) {
    ('0' <= c <= '9') || ('a' <= c <= 'f')
  }

  /** `v.toString(16)` for a single nibble. */
  function HexDigit(v: Nibble): (c: char)
    ensures IsLowerHex(c)
  {
    HexDigits[v]
  }

  /** The variant nibble `(r & 0x3) | 0x8`: always one of 8, 9, 10, 11. */
  function VariantNibble(r: Nibble): (v: Nibble)
    ensures 8 <= v < 12
    ensures v % 4 == r % 4
  {
    (((r as bv8) & 0x3) | 0x8) as int
  }

  /** The number of `x`/`y` placeholders in a template. */
  function Placeholders(tpl: string): nat {
    if tpl == [] then 0
    else (if tpl[0] == 'x' || tpl[0] == 'y' then 1 else 0) + Placeholders(tpl[1..])
  }

  lemma {:induction false} PlaceholdersAppend(a: string, b: string)
    ensures Placeholders(a + b) == Placeholders(a) + Placeholders(b)
    decreases |a|
  {
    if a != [] {
      assert (a + b)[0] == a[0];
      assert (a + b)[1..] == a[1..] + b;
      PlaceholdersAppend(a[1..], b);
    } else {
      assert a + b == b;
    }
  }

  lemma {:induction false} PlaceholdersXs(n: nat)
    ensures Placeholders(Xs(n)) == n
  {
    if n > 0 {
      assert Xs(n)[1..] == Xs(n - 1);
      PlaceholdersXs(n - 1);
    }
  }

  /** The template consumes exactly 31 nibbles. */
  lemma TemplatePlaceholders()
    ensures |Template| == 36
    ensures Placeholders(Template) == 31
  {
    PlaceholdersXs(8);
    PlaceholdersXs(4);
    PlaceholdersXs(3);
    PlaceholdersXs(12);
    assert Placeholders("-") == 0;
    assert Placeholders("-4") == 0;
    assert Placeholders("-y") == 1;
    var a := Xs(8) + "-";
    PlaceholdersAppend(Xs(8), "-");
    var b := a + Xs(4);
    PlaceholdersAppend(a, Xs(4));
    var c := b + "-4";
    PlaceholdersAppend(b, "-4");
    var d := c + Xs(3);
    PlaceholdersAppend(c, Xs(3));
    var e := d + "-y";
    PlaceholdersAppend(d, "-y");
    var f := e + Xs(3);
    PlaceholdersAppend(e, Xs(3));
    var g := f + "-";
    PlaceholdersAppend(f, "-");
    PlaceholdersAppend(g, Xs(12));
  }

  /** `tpl.replace(/[xy]/g, ...)` with the nibbles `n` standing in for `Math.random() * 16 | 0`. */
  function Fill(tpl: string, n: seq<Nibble>): string
    requires |n| >= Placeholders(tpl)
    decreases |tpl|
  {
    if tpl == [] then []
    else if tpl[0] == 'x' then [HexDigit(n[0])] + Fill(tpl[1..], n[1..])
    else if tpl[0] == 'y' then [HexDigit(VariantNibble(n[0]))] + Fill(tpl[1..], n[1..])
    else [tpl[0]] + Fill(tpl[1..], n)
  }

  /** What a character of the template allows at its position in the output. */
  predicate Fits(t: char, c: char) {
    if t == 'x' then IsLowerHex(c)
    else if t == 'y' then c == '8' || c == '9' || c == 'a' || c == 'b'
    else c == t
  }

  /** Filling keeps the template's length and puts an allowed character at every position. */
  lemma {:induction false} FillFits(tpl: string, n: seq<Nibble>)
    requires |n| >= Placeholders(tpl)
    ensures |Fill(tpl, n)| == |tpl|
    ensures forall i :: 0 <= i < |tpl| ==> Fits(tpl[i], Fill(tpl, n)[i])
    decreases |tpl|
  {
    if tpl != [] {
      var rest := if tpl[0] == 'x' || tpl[0] == 'y' then n[1..] else n;
      FillFits(tpl[1..], rest);
      var f := Fill(tpl, n);
      assert f[1..] == Fill(tpl[1..], rest);
      if tpl[0] == 'y' {
        var v := VariantNibble(n[0]);
        assert HexDigits[v] == f[0];
        assert v == 8 || v == 9 || v == 10 || v == 11;
      }
      forall i | 0 <= i < |tpl|
        ensures Fits(tpl[i], f[i])
      {
        if i > 0 {
          assert tpl[i] == tpl[1..][i - 1];
          assert f[i] == f[1..][i - 1];
        }
      }
    }
  }

  /**
   The version-4 layout test of the client's own test suite:
   8-4-4-4-12 lowercase hex digits, '4' at index 14, one of 8/9/a/b at index 19.
   */
  predicate IsV4Shape(s: string) {
    && |s| == 36
    && s[8] == '-' && s[13] == '-' && s[18] == '-' && s[23] == '-'
    && s[14] == '4'
    && (s[19] == '8' || s[19] == '9' || s[19] == 'a' || s[19] == 'b')
    && (forall i :: 0 <= i < 36 && i != 8 && i != 13 && i != 18 && i != 23 ==> IsLowerHex(s[i]))
  }

  /** `generateUUID` */
  function Generate(e: Entropy): string {
    TemplatePlaceholders();
    Fill(Template, e)
  }

  /** A generated identifier always has the version-4 layout. */
  lemma GenerateShape(e: Entropy)
    ensures IsV4Shape(Generate(e))
  {
    TemplatePlaceholders();
    FillFits(Template, e);
    var s := Generate(e);
    assert Fits(Template[8], s[8]);
    assert Fits(Template[13], s[13]);
    assert Fits(Template[18], s[18]);
    assert Fits(Template[23], s[23]);
    assert Fits(Template[14], s[14]);
    assert Fits(Template[19], s[19]);
    forall i | 0 <= i < 36 && i != 8 && i != 13 && i != 18 && i != 23
      ensures IsLowerHex(s[i])
    {
      assert Fits(Template[i], s[i]);
    }
  }
}

=== FILE: values.dfy ===
/**
 JavaScript values as the telemetry client sees them: the argument objects
 of `track`/`identify`, event properties and default tracking properties.
 Also the small value-level helpers of the client: truthiness, the
 "null or blank" identity test, object spread and `removeNullProperties`.
 */
module Values {

  /** A nullable field of the client: JavaScript `null` is `None`. */
  datatype Option<+T> = None | Some(value: T)

  /** `id || ""`: the text a setter writes to the store for a nullable identifier. */
  function OrEmpty(id: Option<string>): string {
    if id.Some? then id.value else ""
  }

  /** A JavaScript value. Numbers are modelled as integers (no NaN, no fractions). */
  datatype Value =
    | Undefined
    | Null
    | Bool(b: bool)
    | Num(n: int)
    | Str(s: string)
    | Arr(elems: seq<Value>)
    | Obj(fields: map<string, Value>)

  /** JavaScript truthiness (`if (v)`, `v || w`). */
  predicate Truthy(v: Value) {
    match v
    case Undefined => false
    case Null => false
    case Bool(b) => b
    case Num(n) => n != 0
    case Str(s) => s != ""
    case Arr(_) => true
    case Obj(_) => true
  }

  /** `typeof v === "object"`, which holds for null as well. */
  predicate IsObjectType(v: Value) {
    v.Null? || v.Arr? || v.Obj?
  }

  /** Property read `v.key`: a missing property, or a read on a non-object, gives undefined. */
  function Get(v: Value, key: string): (r: Value)
    ensures !v.Obj? ==> r == Undefined
    ensures v.Obj? && key !in v.fields ==> r == Undefined
    ensures v.Obj? && key in v.fields ==> r == v.fields[key]
  {
    if v.Obj? && key in v.fields then v.fields[key] else Undefined
  }

  /** `v || fallback` */
  function Or(v: Value, fallback: Value): (r: Value)
    ensures Truthy(v) ==> r == v
    ensures !Truthy(v) ==> r == fallback
  {
    if Truthy(v) then v else fallback
  }

  /** The JavaScript `string`/`Value` view of a nullable identity. */
  function FromOption(o: Option<string>): Value {
    match o
    case Some(s) => Str(s)
    case None => Null
  }

  /** The three spellings the client treats as "no value" once a string is known. */
  predicate BlankText(s: string) {
    s == "" || s == "null" || s == "undefined"
  }

  /**
   `isStringNullOrBlank`: every non-string is blank; a string is blank when it
   is falsy (empty) or equal to "", "null" or "undefined". Nothing is trimmed,
   so a whitespace-only string is NOT blank.
   */
  predicate IsStringNullOrBlank(v: Value)
    ensures IsStringNullOrBlank(v) <==> !v.Str? || BlankText(v.s)
  {
    if !v.Str? then true
    else !Truthy(v) || v.s == "" || v.s == "null" || v.s == "undefined"
  }

  /** There is no trim: a whitespace-only string is a real identity. */
  lemma WhitespaceIsNotBlank(n: nat)
    requires n > 0
    ensures !IsStringNullOrBlank(Str(seq(n, _ => ' ')))
  {
    var s := seq(n, _ => ' ');
    assert s[0] == ' ';
    assert s != "" && s != "null" && s != "undefined" by {
      assert "null"[0] == 'n';
      assert "undefined"[0] == 'u';
    }
  }

  /**
   Own enumerable entries contributed by `...v` in an object literal. Objects
   contribute their fields; null, undefined, booleans and numbers contribute
   nothing. Strings and arrays, whose spread yields index-keyed entries, are
   treated as contributing nothing as well.
   */
  function Spread(v: Value): (r: map<string, Value>)
    ensures v.Obj? ==> r == v.fields
    ensures !v.Obj? ==> r == map[]
  {
    if v.Obj? then v.fields else map[]
  }

  /**
   `{...under, ...over}`: every key of either side, with the value of `over`
   winning on a collision.
   */
  function Overlay(under: map<string, Value>, over: map<string, Value>): (r: map<string, Value>)
    ensures r.Keys == under.Keys + over.Keys
    ensures forall k :: k in over ==> r[k] == over[k]
    ensures forall k :: k in under && k !in over ==> r[k] == under[k]
  {
    under + over
  }

  predicate IsNullish(v: Value) {
    v.Null? || v.Undefined?
  }

  /** `removeNullProperties`: drop exactly the entries whose value is null or undefined. */
  function RemoveNullProperties(m: map<string, Value>): (r: map<string, Value>)
    ensures forall k :: k in r ==> k in m && r[k] == m[k] && !IsNullish(r[k])
    ensures forall k :: k in m && !IsNullish(m[k]) ==> k in r
  {
    map k | k in m && !IsNullish(m[k]) :: m[k]
  }

  /** Removing null properties twice removes nothing more. */
  lemma RemoveNullPropertiesIdempotent(m: map<string, Value>)
    ensures RemoveNullProperties(RemoveNullProperties(m)) == RemoveNullProperties(m)
  {
  }

  /** A map without null or undefined values is left as it is. */
  lemma RemoveNullPropertiesKeepsClean(m: map<string, Value>)
    requires forall k :: k in m ==> !IsNullish(m[k])
    ensures RemoveNullProperties(m) == m
  {
  }
}
